=== FILE: README.md ===
# Block-write tracker: a Dafny model

The tracker is a Linux kernel module that watches chosen block devices. It
streams every write request aimed at them to a collector listening on a TCP
connection at `127.0.0.1:1234`. For each request that carries data it sends a
packed 64-byte change record header (device name, wall-clock timestamp,
starting sector, payload size), followed by the payload, segment by segment.
It uses one connection drawn from a small pool and hands it back afterwards.

Requests are intercepted in one of two ways, depending on the kernel version:

- from kernel 5.9 on, a global ftrace hook on `submit_bio_noacct` runs
  `tracing_fn`, which walks the list of tracked devices;
- before 5.9, each tracked device's request handler is replaced by
  `misc_make_request_fn`, which later delegates to the saved handler.

This project models that core as pure state transitions over abstract
handles:

- the tracked-device list (`Registry`);
- the connection pool (`SocketPool`);
- the kernel socket layer as an oracle, with a log of every send attempt
  (`Transport`);
- the partial-write retry loop (`Writer`);
- the packed header and its byte layout (`ChangeRecord`);
- the per-request and per-chain extraction (`Extractor`);
- the two interception paths and the hook's registration flag
  (`Interception`).

Everything the kernel decides is a parameter. That covers socket replies,
allocation outcomes, connection outcomes, the clock, and the stale stack
bytes behind the device name. In `Extractor.Env`, the oracles are indexed by
counters kept in `Extractor.World`:

- socket replies by the number of send attempts so far;
- allocation outcomes by the number of buffer allocations so far;
- connection outcomes by the number of pool acquisitions so far, including
  those that found a free entry and never connected;
- the clock by the number of clock readings so far.

The stale name bytes are a single 32-byte value shared by every request. A
run of the model is therefore fully determined by its environment.

The central promises proved here are:

- **write_to_socket.** What reaches the wire is always a prefix of the buffer,
  and every attempt offers exactly the unsent remainder. The call returns 0
  exactly when no attempt failed. A result of 0 means the whole buffer went
  out. For a non-empty buffer, a non-zero result means part of it was not
  sent.
- **Change record.** The header layout is a bijection on 64-byte strings, and
  the name field reads back as the disk name.
- **Connection pool.** The pool keeps its invariant, and acquire followed by
  release is a round trip. A request keeps the pool valid and its number of
  connections in use unchanged. It leaves the pool exactly as it found it when
  a connection was free; otherwise a newly opened connection stays behind as
  a free entry.
- **Extraction.** Extracting a chain emits one outcome per request, in
  order. Each outcome matches its request, and a complete record on the wire
  is the header followed by the payload. A request's header and segments all
  report success exactly when the transport accepted every attempt. With every
  buffer granted and a transport that never fails, the record always goes out
  complete. A request with data gets no outcome without a connection exactly
  when the pool's acquisition yields none. Call the environment faultless
  when every buffer is granted and the transport never fails. With a free
  connection at hand and a faultless environment, every request with data is
  written out whole.
- **tracing_fn.** It extracts a write once per list node naming its device,
  which is at most once in a duplicate-free list. The wire carries exactly the
  bytes the extractions report, in order. In a faultless environment each
  of those extractions sent every connected request as a complete record. It
  always passes the initial request on.
- **Device list.** The add/remove/lookup/restore operations agree with each
  other.

## Model

| member | source | states |
|---|---|---|
| Registry.Add | szs_tracker_module.c:109-140 | An already tracked device is refused with -1 and an allocation failure with -ENOMEM, both leaving the list unchanged. Otherwise a node carrying the saved handler is linked in at the head. The device set grows by exactly the added device, and a duplicate-free list stays duplicate-free. |
| Registry.AddTwiceFails | szs_tracker_module.c:115-121 | After a successful add, adding the same device again fails with -1 and changes nothing. |
| Registry.FirstIndex | szs_tracker_module.c:149-162 | The scan stops at the first node naming the device, or runs off the end exactly when no node names it. |
| Registry.Remove | szs_tracker_module.c:145-166 | Only the first node naming the device is unlinked, and the rest of the list keeps its order. An unknown device leaves the list as it is. |
| Registry.RemoveUndoesAdd | szs_tracker_module.c:109-166 | Removing a device right after adding it restores the list exactly. |
| Registry.RemoveFromUnique | szs_tracker_module.c:145-166 | In a duplicate-free list, removal takes the device out of the device set and keeps the list duplicate-free. |
| Registry.UniqueOccurrences | szs_tracker_module.c:115-121 | In a list kept duplicate-free by the add check, a device is named by one node or by none. |
| Registry.RestoreTarget | szs_tracker_module.c:531-551 | The handler written back on unregistration comes from the last node naming the device; there is none exactly when the device is untracked. |
| Registry.RestoreGivesSavedHandler | szs_tracker_module.c:531-551 | Unregistering a freshly added device restores the handler that was saved when it was added. |
| Registry.Lookup | szs_tracker_module.c:365-377 | Delegation goes through the first node naming the request's device; there is none exactly when the device is untracked. |
| Registry.LookupAfterAdd | szs_tracker_module.c:365-377 | Requests of a freshly added device are delegated to the handler saved with it. |
| Registry.LookupAgreesWithRestore | szs_tracker_module.c:536-545 | In a duplicate-free list, the node requests are delegated through is the node whose handler unregistration restores. |
| Registry.RestoreHead | szs_tracker_module.c:539-545 | In a duplicate-free list, unregistering the head device of any suffix restores that node's own handler. |
| Registry.RemoveAll | szs_tracker_module.c:592-599 | Unregistering all devices empties the list. In a duplicate-free list, every node's own saved handler is restored, in list order. |
| SocketPool.Init | socketpool.c:60-107 | Size and bounds are set even on failure. An IP allocation failure gives -ENOMEM. Otherwise the result is 0 exactly when both slots connect; if not, it is the first failing slot's error. A success fills both slots with free connections, and slots above the minimum are untouched. |
| SocketPool.InitSlots | socketpool.c:82-104 | Slots are filled in order from `index`, and filling stops at the first failure with that failure's error. Only the slots in range change, and only the entry array. |
| SocketPool.InitValid | socketpool.c:60-107 | A successful initialisation with honest, distinct sockets gives a valid pool with nothing in use. |
| SocketPool.InitFirstSlots | socketpool.c:82-104 | After initialising the zeroed pool, each of the two slots holds its connected socket, or NULL from the first failing slot on. |
| SocketPool.Cleanup | socketpool.c:112-133 | Every non-NULL live socket is destroyed and nothing else. Size, port and bounds become 0. In a valid pool, exactly the live sockets are destroyed, in slot order. |
| SocketPool.LiveSockets | socketpool.c:120-125 | The sockets destroyed are the non-NULL live entries: each of them, and only those. |
| SocketPool.CleanupAfterInit | socketpool.c:60-133 | Cleanup after an initialisation releases exactly the sockets that were connected, whether the initialisation succeeded or failed part-way. |
| SocketPool.ScanFree | socketpool.c:152-163 | The free-slot scan finds the lowest free live slot, or reports that every live slot is in use. |
| SocketPool.ScanSocket | socketpool.c:227-237 | The release scan finds the lowest live slot holding the socket, or reports that it is not in the pool. |
| SocketPool.Acquire | socketpool.c:140-206 | The lowest free entry is claimed and its socket returned. If none is free, the pool grows by one in-use entry when below its maximum and the connect succeeds. Otherwise NULL is returned and the pool is unchanged. |
| SocketPool.Release | socketpool.c:213-238 | The in-use flag of the first entry holding the socket is cleared. A NULL or unknown socket changes nothing, and the size and bounds never change. |
| SocketPool.AcquireKeepsValid | socketpool.c:140-206 | Acquire preserves the pool invariant. A success puts exactly one more connection in use and a failure changes nothing. At most `maxSize` connections are ever in use. |
| SocketPool.ReleaseKeepsValid | socketpool.c:213-238 | Release preserves the pool invariant and frees exactly one connection when the socket was in use. |
| SocketPool.AcquireReleaseRoundTrip | socketpool.c:140-238 | With a free connection available, acquiring it and handing it back restores the pool exactly. |
| SocketPool.AcquireGrowReleaseKeepsEntry | socketpool.c:196-198 | A connection opened because every existing one was busy stays in the pool as a free entry once handed back. |
| SocketPool.ExhaustedPoolRefuses | socketpool.c:166-172 | With all ten connections in use, acquisition returns NULL and leaves the pool alone, whatever the connect outcome would be. |
| SocketPool.GrowthOnExhaustion | socketpool.c:176-201 | When every connection is busy below the maximum, a successful connect grows the pool by exactly one in-use connection. |
| ChangeRecord.Encode | szs_tracker_module.c:63-71 | The packed header is 64 bytes: the name in bytes 0-31, then seconds, nanoseconds, starting sector and size as 8-byte little-endian fields with no padding. Each field reads back from its slice. |
| ChangeRecord.DecodeEncode | szs_tracker_module.c:63-71 | Reading an encoded header gives back the header. |
| ChangeRecord.EncodeDecode | szs_tracker_module.c:63-71 | Every 64-byte string is the encoding of the header it decodes to. |
| ChangeRecord.NameFieldReadsBack | szs_tracker_module.c:216-220 | The name field, copied with a terminating NUL over stale bytes, reads back as the disk name whatever the stale bytes. |
| ChangeRecord.DataSize | szs_tracker_module.c:213 | The declared size is a multiple of 512 within 512 bytes below the request's byte size. It equals the byte size exactly when the request covers whole sectors. |
| ChangeRecord.Populate | szs_tracker_module.c:210-221 | The header names the request's disk, carries the clock reading and the starting sector, and declares the request's byte size rounded down to whole sectors. |
| ChangeRecord.RecordFraming | szs_tracker_module.c:269-272 | A collector reading a complete record decodes the header from its first 64 bytes and finds the disk name and sector. The declared size equals the payload length exactly when the request covers whole sectors; otherwise it falls short by fewer than 512 bytes. |
| Writer.NextAttempt | szs_tracker_module.c:180-200 | One attempt offering the unsent remainder either fails, leaving a strict prefix of a non-empty buffer on the wire, or takes all of the rest, or takes some of it and strictly advances the loop. |
| Writer.AttemptOutcome | szs_tracker_module.c:180-200 | The next attempt either ends the loop with its error, or ends it with everything taken, or keeps the loop going with strictly more bytes taken. |
| Writer.SendOnce | szs_tracker_module.c:180-200 | One pass of the retry loop either finishes with the loop's outcome or continues with more bytes taken. |
| Writer.SendLoop | szs_tracker_module.c:180-202 | The retry loop ends with every attempt but the last accepted and every attempt offering the remainder. A result of 0 means the whole buffer went out; any other result is the failing attempt's negative error. |
| Writer.WriteToSocket | szs_tracker_module.c:171-203 | Only new attempts, all on the given socket, are appended to the log, and at least one is made. The result is 0 exactly when the transport accepted every attempt. The wire carries the whole buffer when the result is 0. After an error it carries a strict prefix of a non-empty buffer, and the error is the last reply. |
| Extractor.WriteSegment | szs_tracker_module.c:246-249 | A segment's bytes on the wire are the whole segment on success, or a prefix of it. A failure on a non-empty segment leaves some of it unsent, and the result is 0 exactly when the transport accepted every attempt. |
| Extractor.SendNextSegment | szs_tracker_module.c:233-252 | One more segment, whose buffer was allocated, is sent on the same connection. The wire carries the segments sent so far in order, and all results so far are 0 exactly when every attempt so far was accepted. |
| Extractor.SegmentLogSnoc | szs_tracker_module.c:233-252 | The attempts for the segments sent so far, followed by those for one more segment on the same connection, carry all those segments' bytes in order. |
| Extractor.AcceptedSnoc | szs_tracker_module.c:233-252 | The results so far plus one more are all 0 exactly when every attempt so far, and every attempt for the new segment, was accepted. |
| Extractor.WriteSegments | szs_tracker_module.c:228-253 | Segments are tried in order, one allocation each, and the first failed allocation abandons the rest. Send failures do not stop later segments. The wire carries the tried segments, each whole or as a prefix. Every segment tried and every result 0 means the payload went out whole; conversely, a payload of non-empty segments that went out whole had every result 0. Every result is 0 exactly when the transport accepted every attempt. |
| Extractor.RecordIntegrity | szs_tracker_module.c:228-253 | With every buffer granted and a transport that never fails, the header and every segment are sent whole and without error, so the wire carries the header followed by the whole payload. |
| Extractor.SendRecord | szs_tracker_module.c:269-272 | The populated header, then the payload segments, go out over the one connection. The header and every segment report success exactly when every attempt was accepted. With every buffer granted and a transport that never fails, the outcome is complete and its bytes are the encoded header followed by the payload. |
| Extractor.PoolAfterBio | szs_tracker_module.c:261-273 | Every connection taken for a request is handed back. A valid pool stays valid and keeps its in-use count, and a pool with a free connection ends exactly as it began. |
| Extractor.WriteBio | szs_tracker_module.c:259-274 | Without a connection, nothing is sent. Otherwise the populated header, then the payload segments, go out over that one connection and nothing else. One buffer is taken per segment tried, up to the first refusal. The header and every segment report success exactly when every attempt was accepted. With every buffer granted and a transport that never fails, the record goes out complete: the encoded header followed by the payload. |
| Extractor.ExtractOne | szs_tracker_module.c:299-306 | A request without data is skipped and nothing changes. A request with data consumes one pool acquisition and is turned away exactly when that acquisition yields no connection. With every buffer granted and a transport that never fails, a request that got a connection goes out as a complete record. |
| Extractor.ExtractNext | szs_tracker_module.c:297-309 | One step of the chain walk appends the next request's outcome and its bytes to the wire. In a faultless environment every streamed outcome so far is complete. |
| Extractor.ExtractBios | szs_tracker_module.c:295-310 | The chain is walked in order with one outcome per request, and the wire carries the outcomes' bytes in order. A pool with a free connection serves every request and ends unchanged. In a faultless environment every request that got a connection went out complete, so with a free connection at hand every request with data is written out whole. |
| Interception.TracedExtract | szs_tracker_module.c:333-345 | A node naming a write request's device adds one extraction, whose records follow the earlier ones on the wire. |
| Interception.WalkList | szs_tracker_module.c:330-347 | Walking the whole list yields one extraction per node naming a write request's device, each a full walk of the chain and complete in a faultless environment. Their bytes follow each other on the wire. |
| Interception.VisitNode | szs_tracker_module.c:330-347 | One node of the list walk extracts the chain once when the node names a write request's device. Any other node leaves the extractions and the world unchanged. |
| Interception.TracingFn | szs_tracker_module.c:325-350 | A write is extracted once per node naming its device, and nothing else is. In a duplicate-free list that is once exactly when the device is tracked. The wire carries exactly the bytes the extractions report, in order. In a faultless environment every extraction sent each connected request as a complete record. The initial request is always passed on, exactly once. |
| Interception.MiscMakeRequest | szs_tracker_module.c:357-378 | A write is extracted exactly once, and nothing else is. The wire carries exactly the bytes that extraction reports, and in a faultless environment each connected request went out as a complete record. The request is delegated through the first node naming its device, or dropped exactly when no node does. |
| Interception.RegisterTracer | szs_tracker_module.c:416-438 | The first failing step's result is returned, and the flag is set only when both steps succeed. |
| Interception.UnregisterTracer | szs_tracker_module.c:443-453 | The hook is unregistered only when the flag is set, and the flag is never cleared. |
| Interception.RegisterThenUnregister | szs_tracker_module.c:416-453 | After a failed registration, unregistration does nothing; after a successful one, it unhooks once. |

## Left out

- Kernel plumbing is not modelled. This covers the ftrace handler that
  rewrites the instruction pointer, the `MCOUNT_INSN_SIZE` passthrough, and
  `kmap_atomic`/`kfree`. A request's segments are given directly as byte
  strings.
- The pool's NULL-pointer guards are not modelled: `socket_pool_init`
  returning -1, `get_free_socket` returning NULL, and the early returns of
  `socket_pool_cleanup` and `put_socket` (socketpool.c:62-66, 114-118,
  142-146, 215-219). The module only ever passes the address of its static
  pool, which is never NULL.
- Kernel sockets, `in_aton` and `htons` are not modelled. Sockets are opaque
  handles and create-and-connect is one oracle outcome (`Connect`).
- The pool's spinlock and all concurrency are not modelled, including
  `put_socket` running without the lock. Each operation is one atomic step.
- The model does not prove termination for a transport that accepts 0 bytes
  of a non-empty offer, because the source would loop forever. The
  environment is assumed to behave as a stream socket (`HonestSend`).
- The timestamp is not interpreted: it is an opaque pair of 64-bit fields
  read from the clock oracle.
- The partition comparison (`bi_disk` against `bd_disk`, or `bi_bdev`) is
  modelled as equality of device identities.
- Device reference counts (`blkdev_put`) are not modelled.
- Field widths are not modelled: the `int` counters of write_to_socket and
  the `size_t` lengths are unbounded integers. The sector and size fields are
  64-bit, and a request's byte size is bounded by 2^32.
- Some operations outside the request path are not modelled:
  `register_block_device_by_path`, `unregister_block_device_by_path`, the ioctl
  handler, and module init/exit.
- A known defect is not modelled: `socket_pool_init` allocates `strlen(ip)`
  bytes for the address and then `strcpy`s it, one byte too few. The model
  only records whether the allocation succeeded.
- Some uses of the stale name bytes are left out. The header's unused name
  bytes are uninitialised stack contents. They are a parameter (`Env.stale`)
  and are sent as they are; only the name up to its NUL is specified.
- Some behaviours follow the source where its documentation differs:
  - a failed header send does not stop the payload from being sent;
  - a failed segment send does not stop later segments;
  - removing an untracked device only logs a warning;
  - unregistering the hook never clears `tracerRegistered`.
- `misc_make_request_fn` returns `BLK_QC_T_NONE` without submitting a request
  whose device has no node. The model records that as `Dropped`. It can happen
  when registration swapped the handler but failed to add the node.

=== FILE: changerecord.dfy ===
/** The change record header (`struct block_device_change_metadata`): a
    packed 64-byte record holding the device name (32 bytes), the wall-clock
    timestamp (two 8-byte fields, seconds then nanoseconds), the starting
    sector (8 bytes) and the payload size in bytes (8 bytes). Multi-byte
    fields are laid out in the host's native little-endian order. */
module ChangeRecord {
  import opened Common
  import opened Request

  const HeaderSize: nat := 64
  const TimestampOffset: nat := 32
  const SectorOffset: nat := 48
  const DataSizeOffset: nat := 56

  /** `struct timespec64`, kept as the raw 64-bit images of its two fields. */
  datatype Timestamp = Timestamp(seconds: u64, nanoseconds: u64)

  datatype Header = Header(deviceName: seq<byte>, timestamp: Timestamp, startingSector: u64, dataSize: u64)

  function Pow256(n: nat): (r: nat)
    ensures r > 0
  {
    if n == 0 then 1 else 256 * Pow256(n - 1)
  }

  lemma Pow256Eight()
    ensures Pow256(8) == 0x1_0000_0000_0000_0000
  {
    assert Pow256(2) == 0x1_0000;
    assert Pow256(4) == 0x1_0000_0000 by { assert Pow256(3) == 0x100_0000; }
    assert Pow256(6) == 0x1_0000_0000_0000 by { assert Pow256(5) == 0x100_0000_0000; }
    assert Pow256(7) == 0x100_0000_0000_0000;
  }

  /** The `n`-byte little-endian image of `x`. */
  function ToLE(x: nat, n: nat): (bs: seq<byte>)
    ensures |bs| == n
  {
    if n == 0 then [] else [x % 256] + ToLE(x / 256, n - 1)
  }

  /** The number whose little-endian image is `bs`. */
  function FromLE(bs: seq<byte>): (x: nat)
    ensures x < Pow256(|bs|)
  {
    if |bs| == 0 then 0 else bs[0] + 256 * FromLE(bs[1..])
  }

  lemma {:induction false} FromToLE(x: nat, n: nat)
    requires x < Pow256(n)
    ensures FromLE(ToLE(x, n)) == x
    decreases n
  {
    if n > 0 {
      assert x / 256 < Pow256(n - 1);
      FromToLE(x / 256, n - 1);
      assert ToLE(x, n)[1..] == ToLE(x / 256, n - 1);
    }
  }

  lemma {:induction false} ToFromLE(bs: seq<byte>)
    ensures ToLE(FromLE(bs), |bs|) == bs
    decreases |bs|
  {
    if |bs| > 0 {
      var x := FromLE(bs);
      assert x % 256 == bs[0] && x / 256 == FromLE(bs[1..]);
      ToFromLE(bs[1..]);
    }
  }

  /** A 64-bit field read back from its 8 bytes. */
  function FromLE64(bs: seq<byte>): (x: u64)
    requires |bs| == 8
    ensures ToLE(x, 8) == bs
  {
    Pow256Eight();
    ToFromLE(bs);
    FromLE(bs)
  }

  /** The 8-byte image of a 64-bit field; it reads back as the same value. */
  function ToLE64(x: u64): (bs: seq<byte>)
    ensures |bs| == 8
    ensures FromLE64(bs) == x
  {
    Pow256Eight();
    FromToLE(x, 8);
    ToLE(x, 8)
  }

  /** The bytes of the packed header, field after field with no padding. */
  function Encode(h: Header): (bs: seq<byte>)
    requires |h.deviceName| == NameLen
    ensures |bs| == HeaderSize
    ensures bs[..TimestampOffset] == h.deviceName
    ensures FromLE64(bs[TimestampOffset..TimestampOffset + 8]) == h.timestamp.seconds
    ensures FromLE64(bs[TimestampOffset + 8..SectorOffset]) == h.timestamp.nanoseconds
    ensures FromLE64(bs[SectorOffset..DataSizeOffset]) == h.startingSector
    ensures FromLE64(bs[DataSizeOffset..HeaderSize]) == h.dataSize
  {
    var bs := h.deviceName + ToLE64(h.timestamp.seconds) + ToLE64(h.timestamp.nanoseconds)
              + ToLE64(h.startingSector) + ToLE64(h.dataSize);
    assert bs[TimestampOffset..TimestampOffset + 8] == ToLE64(h.timestamp.seconds);
    assert bs[TimestampOffset + 8..SectorOffset] == ToLE64(h.timestamp.nanoseconds);
    assert bs[SectorOffset..DataSizeOffset] == ToLE64(h.startingSector);
    assert bs[DataSizeOffset..HeaderSize] == ToLE64(h.dataSize);
    bs
  }

  /** How a collector reads a header back from its 64 bytes. */
  function Decode(bs: seq<byte>): (h: Header)
    requires |bs| == HeaderSize
    ensures |h.deviceName| == NameLen
  {
    Header(bs[..TimestampOffset],
           Timestamp(FromLE64(bs[TimestampOffset..TimestampOffset + 8]),
                     FromLE64(bs[TimestampOffset + 8..SectorOffset])),
           FromLE64(bs[SectorOffset..DataSizeOffset]),
           FromLE64(bs[DataSizeOffset..HeaderSize]))
  }

  /** Reading an encoded header gives back the header. */
  lemma DecodeEncode(h: Header)
    requires |h.deviceName| == NameLen
    ensures Decode(Encode(h)) == h
  {
  }

  /** Every 64-byte string is the encoding of the header it decodes to: the
      layout has no padding and no unused bits. */
  lemma EncodeDecode(bs: seq<byte>)
    requires |bs| == HeaderSize
    ensures Encode(Decode(bs)) == bs
  {
    var e := Encode(Decode(bs));
    assert e[..TimestampOffset] == bs[..TimestampOffset];
    assert e[TimestampOffset..TimestampOffset + 8] == bs[TimestampOffset..TimestampOffset + 8];
    assert e[TimestampOffset + 8..SectorOffset] == bs[TimestampOffset + 8..SectorOffset];
    assert e[SectorOffset..DataSizeOffset] == bs[SectorOffset..DataSizeOffset];
    assert e[DataSizeOffset..HeaderSize] == bs[DataSizeOffset..HeaderSize];
    assert e == e[..TimestampOffset] + e[TimestampOffset..TimestampOffset + 8]
                + e[TimestampOffset + 8..SectorOffset] + e[SectorOffset..DataSizeOffset]
                + e[DataSizeOffset..HeaderSize];
    assert bs == bs[..TimestampOffset] + bs[TimestampOffset..TimestampOffset + 8]
                 + bs[TimestampOffset + 8..SectorOffset] + bs[SectorOffset..DataSizeOffset]
                 + bs[DataSizeOffset..HeaderSize];
  }

  /** The 32-byte name field after `strcpy`: the name, its terminating NUL,
      and whatever the field held before (`stale`) in the remaining bytes. */
  function NameField(name: seq<byte>, stale: seq<byte>): (field: seq<byte>)
    requires |name| < NameLen && |stale| == NameLen
    ensures |field| == NameLen
  {
    name + [0] + stale[|name| + 1..]
  }

  /** The string a reader of a NUL-terminated field sees: the bytes before
      the first NUL. */
  function CString(field: seq<byte>): (s: seq<byte>)
    ensures s <= field
    ensures forall k :: 0 <= k < |s| ==> s[k] != 0
    ensures |s| < |field| ==> field[|s|] == 0
  {
    if |field| == 0 || field[0] == 0 then [] else [field[0]] + CString(field[1..])
  }

  /** The name field reads back as the device name whatever the stale bytes. */
  lemma {:induction false} NameFieldReadsBack(name: seq<byte>, stale: seq<byte>)
    requires |name| < NameLen && |stale| == NameLen
    requires forall k :: 0 <= k < |name| ==> name[k] != 0
    ensures CString(NameField(name, stale)) == name
  {
    var field := NameField(name, stale);
    var s := CString(field);
    assert field[|name|] == 0;
    assert forall k :: 0 <= k < |name| ==> field[k] == name[k];
  }

  /** `dataSize`: `bio_sectors(bio) * BIO_SECTOR_SIZE`, i.e. `bi_size`
      rounded down to whole sectors. */
  function DataSize(bio: Bio): (n: u64)
    requires WellFormedBio(bio)
    ensures n % SectorSize == 0
    ensures n <= Size(bio) < n + SectorSize
    ensures n == Size(bio) <==> Size(bio) % SectorSize == 0
  {
    (Size(bio) / SectorSize) * SectorSize
  }

  /** populate_block_device_change_metadata: the header for a request, given
      the wall-clock reading `now` and the stale contents of the name field. */
  function Populate(bio: Bio, now: Timestamp, stale: seq<byte>): (h: Header)
    requires WellFormedBio(bio) && |stale| == NameLen
    ensures |h.deviceName| == NameLen
    ensures CString(h.deviceName) == bio.diskName
    ensures h.timestamp == now
    ensures h.startingSector == bio.sector
    // the declared size is the request's byte size rounded down to whole
    // sectors
    ensures h.dataSize == DataSize(bio)
    ensures h.dataSize % SectorSize == 0
    ensures h.dataSize <= Size(bio) < h.dataSize + SectorSize
    ensures h.dataSize == Size(bio) <==> Size(bio) % SectorSize == 0
  {
    NameFieldReadsBack(bio.diskName, stale);
    Header(NameField(bio.diskName, stale), now, bio.sector, DataSize(bio))
  }

  /** What a collector reading a complete record sees: the first 64 bytes
      decode to the header, naming the device and the starting sector, and
      the declared size is the payload's length exactly when the request
      covers whole sectors; otherwise it falls short of the payload by the
      odd bytes. */
  lemma RecordFraming(bio: Bio, now: Timestamp, stale: seq<byte>)
    requires WellFormedBio(bio) && |stale| == NameLen
    ensures var h := Populate(bio, now, stale);
            var record := Encode(h) + Flatten(bio.segments);
            && record[..HeaderSize] == Encode(h)
            && Decode(record[..HeaderSize]) == h
            && CString(Decode(record[..HeaderSize]).deviceName) == bio.diskName
            && Decode(record[..HeaderSize]).startingSector == bio.sector
            && (Decode(record[..HeaderSize]).dataSize == |record| - HeaderSize <==> Size(bio) % SectorSize == 0)
            && |record| - HeaderSize - SectorSize < Decode(record[..HeaderSize]).dataSize <= |record| - HeaderSize
  {
    var h := Populate(bio, now, stale);
    var record := Encode(h) + Flatten(bio.segments);
    assert record[..HeaderSize] == Encode(h);
    DecodeEncode(h);
  }
}

=== FILE: common.dfy ===
/** Shared vocabulary of the block-write tracker model: the constants of the
    tracker's configuration header, fixed-width integer ranges, the errno
    values the core returns, and the Option wrapper used for nullable values. */
module Common {

  /** Capacity of the pool's entry array (`SOCKET_POOL_MAX_SOCKETS`). */
  const MaxSockets: nat := 10
  /** Number of connections opened when the pool is initialised (`SOCKET_POOL_MIN_SOCKETS`). */
  const MinSockets: nat := 2
  /** Width of the device-name field of a change record (`BLOCK_DEVICE_NAME_LEN`). */
  const NameLen: nat := 32
  /** Bytes per sector (`BIO_SECTOR_SIZE`). */
  const SectorSize: nat := 512

  /** Kernel error numbers used by the core (returned negated). */
  const ENOMEM: int := 12

  type byte = x: int | 0 <= x < 0x100
  type u16 = x: int | 0 <= x < 0x1_0000
  type u32 = x: int | 0 <= x < 0x1_0000_0000
  type u64 = x: int | 0 <= x < 0x1_0000_0000_0000_0000
  /** A failing kernel call's result: a negated error number. */
  type Errno = x: int | x < 0 witness -1

  /** Opaque identity of a host block device (the `struct block_device *`). */
  type DeviceId = nat

  datatype Option<+T> = None | Some(value: T)

  /** Concatenation of a sequence of byte strings, in order. */
  function Flatten(parts: seq<seq<byte>>): (r: seq<byte>)
  {
    if |parts| == 0 then [] else Flatten(parts[..|parts| - 1]) + parts[|parts| - 1]
  }

  lemma {:induction false} FlattenAppend(a: seq<seq<byte>>, b: seq<seq<byte>>)
    ensures Flatten(a + b) == Flatten(a) + Flatten(b)
    decreases |b|
  {
    if |b| == 0 {
      assert a + b == a;
    } else {
      var last := b[|b| - 1];
      assert (a + b)[..|a + b| - 1] == a + b[..|b| - 1];
      FlattenAppend(a, b[..|b| - 1]);
      assert Flatten(a + b) == Flatten(a + b[..|b| - 1]) + last;
      ConcatAssoc(Flatten(a), Flatten(b[..|b| - 1]), last);
    }
  }

  lemma ConcatAssoc<T>(x: seq<T>, y: seq<T>, z: seq<T>)
    ensures (x + y) + z == x + (y + z)
  {
  }
}

=== FILE: extractor.dfy ===
/** Extraction of a write request: the change record (header, then payload
    segments) streamed over one pooled connection, and the walk along a chain
    of requests. Everything the kernel decides — socket replies, allocation
    outcomes, new connections, the wall clock, the stale contents of the
    header's name field — comes from an `Env`, whose oracles are indexed by
    how often each has been consulted so far (the counters in `World`). */
module Extractor {
  import opened Common
  import opened Request
  import opened ChangeRecord
  import opened SocketPool
  import opened Transport
  import opened Writer

  datatype Env = Env(
    send: SendOracle,
    alloc: nat -> bool,
    connect: nat -> Connect,
    clock: nat -> Timestamp,
    stale: seq<byte>)

  /** Allocations `from` up to `from + n - 1` are all granted. */
  predicate Granted(alloc: nat -> bool, from: nat, n: nat)
  {
    forall k :: from <= k < from + n ==> alloc(k)
  }

  /** The segment loop's allocations, starting at `from`: a buffer for each
      of the `tried` segments and, when the loop stopped short of `total`,
      a refusal for the next one. */
  predicate StopsAtRefusal(alloc: nat -> bool, from: nat, tried: nat, total: nat)
  {
    Granted(alloc, from, tried) && (tried < total ==> !alloc(from + tried))
  }

  /** The environment the extractor relies on: a stream-socket transport and
      a 32-byte name field. */
  ghost predicate Sane(env: Env)
  {
    HonestSend(env.send) && |env.stale| == NameLen
  }

  /** The tracker's shared state: the connection pool, every send attempt
      so far, and how many allocations, pool acquisitions and clock readings
      have happened. */
  datatype World = World(pool: Pool, log: seq<Attempt>, allocs: nat, acquires: nat, clocks: nat)

  /** What happened to one request of a chain. `headerSent` and `parts` are
      the bytes of the header and of each payload segment that got onto the
      wire; `segmentRcs` has one write_to_socket result per segment tried. */
  datatype BioOutcome =
    | Skipped
    | NoSocket
    | Streamed(sock: SocketHandle, header: Header, headerRc: int, headerSent: seq<byte>,
               segmentRcs: seq<int>, parts: seq<seq<byte>>)

  /** The bytes an outcome put on the wire. */
  function Wire(o: BioOutcome): seq<byte>
  {
    if o.Streamed? then o.headerSent + Flatten(o.parts) else []
  }

  /** The bytes a run of outcomes put on the wire, in order. */
  function WireAll(outs: seq<BioOutcome>): seq<byte>
  {
    if |outs| == 0 then [] else WireAll(outs[..|outs| - 1]) + Wire(outs[|outs| - 1])
  }

  /** Each segment tried was sent whole, or a prefix of it when its
      write_to_socket failed (returned a negative value); a failure on a
      non-empty segment leaves some of it unsent. */
  predicate Fits(rcs: seq<int>, parts: seq<seq<byte>>, segments: seq<seq<byte>>)
  {
    && |rcs| == |parts| <= |segments|
    && forall k :: 0 <= k < |parts| ==>
         && parts[k] <= segments[k]
         && rcs[k] <= 0
         && (rcs[k] == 0 ==> parts[k] == segments[k])
         && (rcs[k] != 0 && segments[k] != [] ==> parts[k] != segments[k])
  }

  /** Every write_to_socket result is 0. */
  predicate AllZero(rcs: seq<int>)
  {
    forall k :: 0 <= k < |rcs| ==> rcs[k] == 0
  }

  lemma FitsSnoc(rcs: seq<int>, parts: seq<seq<byte>>, segments: seq<seq<byte>>, rc: int, part: seq<byte>)
    requires Fits(rcs, parts, segments) && |parts| < |segments|
    requires part <= segments[|parts|] && rc <= 0 && (rc == 0 ==> part == segments[|parts|])
    requires rc != 0 && segments[|parts|] != [] ==> part != segments[|parts|]
    ensures Fits(rcs + [rc], parts + [part], segments)
    ensures AllZero(rcs + [rc]) <==> AllZero(rcs) && rc == 0
  {
    var rcs', parts' := rcs + [rc], parts + [part];
    forall k | 0 <= k < |parts'|
      ensures parts'[k] <= segments[k] && rcs'[k] <= 0 && (rcs'[k] == 0 ==> parts'[k] == segments[k])
      ensures rcs'[k] != 0 && segments[k] != [] ==> parts'[k] != segments[k]
    {
      if k < |parts| {
        assert parts'[k] == parts[k] && rcs'[k] == rcs[k];
      }
    }
  }

  /** When every segment was tried and every send succeeded, the segments
      went out exactly; conversely, segments of non-empty buffers that all
      went out exactly were all sent without error. */
  lemma FitsComplete(rcs: seq<int>, parts: seq<seq<byte>>, segments: seq<seq<byte>>)
    requires Fits(rcs, parts, segments)
    ensures |parts| == |segments| && AllZero(rcs) ==> parts == segments
    ensures parts == segments && (forall k :: 0 <= k < |segments| ==> segments[k] != []) ==> AllZero(rcs)
  {
  }

  /** One segment handed to write_to_socket: what reached the wire is the
      segment or, after a failure, a prefix of it. */
  method WriteSegment(send: SendOracle, segment: seq<byte>, sock: SocketHandle, log: seq<Attempt>)
    returns (rc: int, part: seq<byte>, log': seq<Attempt>)
    requires HonestSend(send)
    ensures Extends(log', log) && AllOn(log', |log|, sock) && Answered(log', |log|, send)
    ensures Stream(log'[|log|..]) == part
    ensures part <= segment && rc <= 0 && (rc == 0 ==> part == segment)
    ensures rc != 0 && segment != [] ==> part != segment
    // the result is 0 exactly when the transport accepted every attempt
    ensures rc == 0 <==> AllAccepted(log', |log|)
  {
    rc, log' := WriteToSocket(send, segment, sock, log);
    part := Stream(log'[|log|..]);
  }

  /** What the segment loop has done after trying `|parts|` segments: each
      had its buffer allocated, went out on `sock` whole or as a prefix, and
      the new attempts carry exactly those bytes in order. */
  predicate SegmentsSent(env: Env, segments: seq<seq<byte>>, sock: SocketHandle, log: seq<Attempt>, allocs: nat,
                         rcs: seq<int>, parts: seq<seq<byte>>, log': seq<Attempt>, allocs': nat)
  {
    && allocs' == allocs + |parts|
    && Granted(env.alloc, allocs, |parts|)
    && OnWire(env.send, sock, log, parts, log')
    && Fits(rcs, parts, segments)
    && (AllZero(rcs) <==> AllAccepted(log', |log|))
  }

  /** The attempts after `log` all went to `sock`, were answered by `send`,
      and carry the bytes of `parts` in order. */
  predicate OnWire(send: SendOracle, sock: SocketHandle, log: seq<Attempt>, parts: seq<seq<byte>>, log': seq<Attempt>)
  {
    && Extends(log', log) && AllOn(log', |log|, sock) && Answered(log', |log|, send)
    && Stream(log'[|log|..]) == Flatten(parts)
  }

  lemma GrantedSnoc(alloc: nat -> bool, from: nat, n: nat)
    requires Granted(alloc, from, n) && alloc(from + n)
    ensures Granted(alloc, from, n + 1)
  {
  }

  /** The attempts for the segments so far, followed by those for one
      more segment, carry the segments' bytes in order on one connection. */
  lemma SegmentLogSnoc(send: SendOracle, sock: SocketHandle, l0: seq<Attempt>, l1: seq<Attempt>, l2: seq<Attempt>,
                       parts: seq<seq<byte>>, part: seq<byte>)
    requires OnWire(send, sock, l0, parts, l1)
    requires Extends(l2, l1) && AllOn(l2, |l1|, sock) && Answered(l2, |l1|, send)
    requires Stream(l2[|l1|..]) == part
    ensures OnWire(send, sock, l0, parts + [part], l2)
  {
    ChainLogs(l0, l1, l2, sock, send);
    FlattenAppend(parts, [part]);
  }

  /** The results so far, and one more, are all 0 exactly when every
      attempt so far, and every attempt for the new one, was accepted. */
  lemma AcceptedSnoc(l0: seq<Attempt>, l1: seq<Attempt>, l2: seq<Attempt>, rcs: seq<int>, rc: int)
    requires Extends(l1, l0) && Extends(l2, l1)
    requires AllZero(rcs) <==> AllAccepted(l1, |l0|)
    requires rc == 0 <==> AllAccepted(l2, |l1|)
    ensures AllZero(rcs + [rc]) <==> AllAccepted(l2, |l0|)
  {
    AllAcceptedSplit(l0, l1, l2);
    assert forall k :: 0 <= k < |rcs| ==> (rcs + [rc])[k] == rcs[k];
    assert (rcs + [rc])[|rcs|] == rc;
  }

  /** One iteration of the segment loop after a successful allocation. */
  method SendNextSegment(env: Env, segments: seq<seq<byte>>, sock: SocketHandle, log: seq<Attempt>, allocs: nat,
                         rcs: seq<int>, parts: seq<seq<byte>>, log': seq<Attempt>, allocs': nat)
    returns (rcs2: seq<int>, parts2: seq<seq<byte>>, log2: seq<Attempt>)
    requires HonestSend(env.send)
    requires SegmentsSent(env, segments, sock, log, allocs, rcs, parts, log', allocs')
    requires |parts| < |segments| && env.alloc(allocs')
    ensures SegmentsSent(env, segments, sock, log, allocs, rcs2, parts2, log2, allocs' + 1)
    ensures |parts2| == |parts| + 1
  {
    // first, while the allocation outcome is at hand
    GrantedSnoc(env.alloc, allocs, |parts|);
    var rc, part, next := WriteSegment(env.send, segments[|parts|], sock, log');
    SegmentLogSnoc(env.send, sock, log, log', next, parts, part);
    AcceptedSnoc(log, log', next, rcs, rc);
    FitsSnoc(rcs, parts, segments, rc, part);
    rcs2, parts2, log2 := rcs + [rc], parts + [part], next;
  }

  /** write_actual_block_change_to_socket: for each segment in order, allocate
      a bounce buffer (outcome `env.alloc`), abandoning the remaining segments
      if that fails, and otherwise write the segment's bytes with
      write_to_socket, whose result is ignored. Returns the per-segment
      results and the bytes of each segment that reached the wire. */
  method WriteSegments(env: Env, segments: seq<seq<byte>>, sock: SocketHandle, log: seq<Attempt>, allocs: nat)
    returns (rcs: seq<int>, parts: seq<seq<byte>>, log': seq<Attempt>, allocs': nat)
    requires HonestSend(env.send)
    ensures |rcs| == |parts| <= |segments|
    // a segment is tried exactly when its buffer was allocated; the first
    // failed allocation ends the loop
    ensures StopsAtRefusal(env.alloc, allocs, |parts|, |segments|)
    ensures allocs' == allocs + |parts| + (if |parts| < |segments| then 1 else 0)
    ensures Extends(log', log) && AllOn(log', |log|, sock) && Answered(log', |log|, env.send)
    ensures Stream(log'[|log|..]) == Flatten(parts)
    ensures Fits(rcs, parts, segments)
    // every segment was tried and sent without error exactly when the
    // payload went out whole (for segments that are not empty)
    ensures |parts| == |segments| && AllZero(rcs) ==> parts == segments
    ensures parts == segments && (forall k :: 0 <= k < |segments| ==> segments[k] != []) ==> AllZero(rcs)
    // a segment reports an error exactly when the transport refused an attempt
    ensures AllZero(rcs) <==> AllAccepted(log', |log|)
  {
    rcs, parts, log', allocs' := [], [], log, allocs;
    assert log'[|log|..] == [];
    while |parts| < |segments|
      invariant SegmentsSent(env, segments, sock, log, allocs, rcs, parts, log', allocs')
      decreases |segments| - |parts|
    {
      var buffered := env.alloc(allocs');
      if !buffered {
        allocs' := allocs' + 1;
        return;
      }
      rcs, parts, log' := SendNextSegment(env, segments, sock, log, allocs, rcs, parts, log', allocs');
      allocs' := allocs' + 1;
    }
    FitsComplete(rcs, parts, segments);
  }

  /** The pool after one request: acquire a connection (new-connection
      outcome `c`) and, when one was obtained, hand it back. Every connection
      taken for a request is returned, so a valid pool keeps its number of
      connections in use, and is left exactly as it was whenever it had a
      free connection. */
  function PoolAfterBio(p: Pool, c: Connect): (r: Pool)
    requires WellFormed(p)
    ensures WellFormed(r)
    ensures Valid(p) && HonestConnect(c) && (c.Connected? ==> FreshFor(p, c.sock)) ==>
              && Valid(r)
              && p.size <= r.size
              && InUseCount(r.entries, r.size) == InUseCount(p.entries, p.size)
    ensures Valid(p) && !NoneFree(p) ==> r == p
  {
    var a := Acquire(p, c);
    if a.sock == Null then a.pool
    else
      var r := Release(a.pool, a.sock);
      PoolAfterBioValid(p, c);
      r
  }

  lemma PoolAfterBioValid(p: Pool, c: Connect)
    requires WellFormed(p)
    ensures var a := Acquire(p, c);
            a.sock != Null && Valid(p) && HonestConnect(c) && (c.Connected? ==> FreshFor(p, c.sock)) ==>
              && Valid(Release(a.pool, a.sock))
              && InUseCount(Release(a.pool, a.sock).entries, a.pool.size) == InUseCount(p.entries, p.size)
    ensures var a := Acquire(p, c);
            Valid(p) && !NoneFree(p) ==> a.sock != Null && Release(a.pool, a.sock) == p
  {
    var a := Acquire(p, c);
    if Valid(p) && !NoneFree(p) {
      AcquireReleaseRoundTrip(p, c);
    } else if a.sock != Null && Valid(p) && HonestConnect(c) && (c.Connected? ==> FreshFor(p, c.sock)) {
      AcquireKeepsValid(p, c);
      ReleaseKeepsValid(a.pool, a.sock);
      // no entry was free, so the pool grew by one in-use entry, which the
      // release frees again
      AcquireGrowReleaseKeepsEntry(p, c);
      InUseCountUnchanged(p.entries, Release(a.pool, a.sock).entries, p.size);
    }
  }

  /** A request's record went out whole: header and every segment sent
      without error. */
  predicate Complete(o: BioOutcome, bio: Bio)
  {
    && o.Streamed?
    && o.headerRc == 0
    && |o.parts| == |bio.segments|
    && AllZero(o.segmentRcs)
  }

  /** What a streamed outcome says about its request: the header describes
      it, the header went out whole or as a prefix, each segment went out
      whole or as a prefix, and a complete record is the header's bytes
      followed by the payload. */
  predicate Describes(o: BioOutcome, bio: Bio)
    requires WellFormedBio(bio)
  {
    o.Streamed? ==>
      && |o.header.deviceName| == NameLen
      && CString(o.header.deviceName) == bio.diskName
      && o.header.startingSector == bio.sector
      && o.header.dataSize == DataSize(bio)
      && o.headerSent <= Encode(o.header)
      && (o.headerRc == 0 ==> o.headerSent == Encode(o.header))
      && Fits(o.segmentRcs, o.parts, bio.segments)
      && (Complete(o, bio) ==> Wire(o) == Encode(o.header) + Flatten(bio.segments))
  }

  /** A record whose buffers were all granted and whose attempts were
      answered by a transport that never fails went out complete: header
      and every segment sent whole and without error. */
  lemma RecordIntegrity(env: Env, segments: seq<seq<byte>>, allocs: nat, log: seq<Attempt>, log': seq<Attempt>,
                        header: seq<byte>, hrc: int, headerSent: seq<byte>, rcs: seq<int>, parts: seq<seq<byte>>)
    requires Extends(log', log) && Answered(log', |log|, env.send)
    requires hrc == 0 ==> headerSent == header
    requires Fits(rcs, parts, segments)
    requires StopsAtRefusal(env.alloc, allocs, |parts|, |segments|)
    requires hrc == 0 && AllZero(rcs) <==> AllAccepted(log', |log|)
    ensures NeverFails(env.send) && Granted(env.alloc, allocs, |segments|) ==>
              && hrc == 0 && |parts| == |segments| && AllZero(rcs)
              && headerSent + Flatten(parts) == header + Flatten(segments)
  {
    if NeverFails(env.send) && Granted(env.alloc, allocs, |segments|) {
      NeverFailsAccepted(log', |log|, env.send);
      assert |parts| == |segments|;
      FitsComplete(rcs, parts, segments);
    }
  }

  /** The sending half of write_bio_to_socket, on connection `sock`: the
      header for clock reading `now`, then the payload segments. */
  method SendRecord(env: Env, bio: Bio, sock: SocketHandle, log: seq<Attempt>, allocs: nat, now: Timestamp)
    returns (out: BioOutcome, log': seq<Attempt>, allocs': nat)
    requires Sane(env) && WellFormedBio(bio)
    ensures out.Streamed? && out.sock == sock && out.header == Populate(bio, now, env.stale)
    ensures Extends(log', log) && Answered(log', |log|, env.send) && AllOn(log', |log|, sock)
    ensures Stream(log'[|log|..]) == Wire(out)
    ensures Describes(out, bio)
    ensures StopsAtRefusal(env.alloc, allocs, |out.parts|, |bio.segments|)
    ensures allocs' == allocs + |out.parts| + (if |out.parts| < |bio.segments| then 1 else 0)
    ensures out.headerRc == 0 && AllZero(out.segmentRcs) <==> AllAccepted(log', |log|)
    ensures NeverFails(env.send) && Granted(env.alloc, allocs, |bio.segments|) ==>
              Complete(out, bio) && Wire(out) == Encode(out.header) + Flatten(bio.segments)
  {
    var h := Populate(bio, now, env.stale);
    var hrc, log1 := WriteToSocket(env.send, Encode(h), sock, log);
    var headerSent := Stream(log1[|log|..]);
    var rcs, parts, log2;
    rcs, parts, log2, allocs' := WriteSegments(env, bio.segments, sock, log1, allocs);
    ChainLogs(log, log1, log2, sock, env.send);
    AllAcceptedSplit(log, log1, log2);
    RecordIntegrity(env, bio.segments, allocs, log, log2, Encode(h), hrc, headerSent, rcs, parts);
    out := Streamed(sock, h, hrc, headerSent, rcs, parts);
    log' := log2;
  }

  /** No connection is to be had for the next request: the pool has no
      free entry, and growing it is refused or the connect fails. */
  predicate NoConnection(env: Env, w: World)
    requires WellFormed(w.pool)
  {
    Acquire(w.pool, env.connect(w.acquires)).sock == Null
  }

  /** write_bio_to_socket: take a connection from the pool; without one,
      give up having sent nothing. Otherwise build the header (clock reading
      `env.clock`), send it, send the payload segments, and hand the
      connection back. Neither send's failure stops what follows it. */
  method WriteBio(env: Env, bio: Bio, w: World) returns (out: BioOutcome, w': World)
    requires Sane(env) && WellFormedBio(bio) && WellFormed(w.pool)
    ensures out.NoSocket? || out.Streamed?
    ensures w'.acquires == w.acquires + 1
    ensures w'.pool == PoolAfterBio(w.pool, env.connect(w.acquires))
    // a NULL connection sends nothing and returns nothing to the pool
    ensures out.NoSocket? <==> NoConnection(env, w)
    ensures out.NoSocket? ==> w'.log == w.log && w'.clocks == w.clocks && w'.allocs == w.allocs
    ensures out.Streamed? ==> out.sock == Acquire(w.pool, env.connect(w.acquires)).sock
    ensures out.Streamed? ==> w'.clocks == w.clocks + 1 && out.header == Populate(bio, env.clock(w.clocks), env.stale)
    // everything this request sent went over its one connection, header first
    ensures Extends(w'.log, w.log) && Answered(w'.log, |w.log|, env.send)
    ensures out.Streamed? ==> AllOn(w'.log, |w.log|, out.sock)
    ensures Stream(w'.log[|w.log|..]) == Wire(out)
    ensures Describes(out, bio)
    // the payload loop takes one buffer per segment tried and stops at the
    // first buffer it cannot get
    ensures out.Streamed? ==>
              && StopsAtRefusal(env.alloc, w.allocs, |out.parts|, |bio.segments|)
              && w'.allocs == w.allocs + |out.parts| + (if |out.parts| < |bio.segments| then 1 else 0)
    // the header and every segment report success exactly when the
    // transport accepted every attempt
    ensures out.Streamed? ==> (out.headerRc == 0 && AllZero(out.segmentRcs) <==> AllAccepted(w'.log, |w.log|))
    // record integrity: with every buffer available and a transport that
    // never fails, the complete record goes out, header first
    ensures out.Streamed? && NeverFails(env.send)
            && Granted(env.alloc, w.allocs, |bio.segments|) ==>
              Complete(out, bio) && Wire(out) == Encode(out.header) + Flatten(bio.segments)
  {
    var a := Acquire(w.pool, env.connect(w.acquires));
    if a.sock == Null {
      return NoSocket, w.(pool := a.pool, acquires := w.acquires + 1);
    }
    var log', allocs';
    out, log', allocs' := SendRecord(env, bio, a.sock, w.log, w.allocs, env.clock(w.clocks));
    w' := World(Release(a.pool, a.sock), log', allocs', w.acquires + 1, w.clocks + 1);
  }

  /** Number of requests in a chain that carry data. */
  function WithData(chain: seq<Bio>): (n: nat)
    ensures n <= |chain|
  {
    if |chain| == 0 then 0 else WithData(chain[..|chain| - 1]) + (if HasData(chain[|chain| - 1]) then 1 else 0)
  }

  lemma WireAllSnoc(outs: seq<BioOutcome>, o: BioOutcome)
    ensures WireAll(outs + [o]) == WireAll(outs) + Wire(o)
  {
    assert (outs + [o])[..|outs|] == outs;
  }

  /** Outcome `k` is the one for request `k`: skipped exactly when the
      request has no data, and otherwise describing it. */
  predicate Reports(outs: seq<BioOutcome>, chain: seq<Bio>)
  {
    && |outs| <= |chain|
    && forall k :: 0 <= k < |outs| ==>
         && (outs[k].Skipped? <==> !HasData(chain[k]))
         && (WellFormedBio(chain[k]) ==> Describes(outs[k], chain[k]))
  }

  /** No request was turned away for want of a connection. */
  predicate AllServed(outs: seq<BioOutcome>)
  {
    forall k :: 0 <= k < |outs| ==> !outs[k].NoSocket?
  }

  lemma ReportsSnoc(outs: seq<BioOutcome>, chain: seq<Bio>, o: BioOutcome)
    requires Reports(outs, chain) && |outs| < |chain|
    requires o.Skipped? <==> !HasData(chain[|outs|])
    requires WellFormedBio(chain[|outs|]) ==> Describes(o, chain[|outs|])
    ensures Reports(outs + [o], chain)
    ensures AllServed(outs) && !o.NoSocket? ==> AllServed(outs + [o])
  {
    var outs' := outs + [o];
    forall k | 0 <= k < |outs'|
      ensures (outs'[k].Skipped? <==> !HasData(chain[k]))
      ensures WellFormedBio(chain[k]) ==> Describes(outs'[k], chain[k])
    {
      if k < |outs| {
        assert outs'[k] == outs[k];
      }
    }
    if AllServed(outs) && !o.NoSocket? {
      forall k | 0 <= k < |outs'| ensures !outs'[k].NoSocket? {
        if k < |outs| {
          assert outs'[k] == outs[k];
        }
      }
    }
  }

  /** The allocator never refuses a buffer. */
  ghost predicate AlwaysGrants(alloc: nat -> bool)
  {
    forall k :: alloc(k)
  }

  /** An environment with nothing to fail on: the transport accepts every
      attempt and the allocator grants every buffer. */
  ghost predicate Faultless(env: Env)
  {
    NeverFails(env.send) && AlwaysGrants(env.alloc)
  }

  /** In a faultless environment, every request of the chain that got a
      connection went out as a complete record. */
  ghost predicate CompleteUnder(env: Env, outs: seq<BioOutcome>, chain: seq<Bio>)
  {
    Faultless(env) ==>
      forall k :: 0 <= k < |outs| && k < |chain| && outs[k].Streamed? ==> Complete(outs[k], chain[k])
  }

  lemma CompleteUnderSnoc(env: Env, outs: seq<BioOutcome>, chain: seq<Bio>, o: BioOutcome)
    requires CompleteUnder(env, outs, chain) && |outs| < |chain|
    requires o.Streamed? && Faultless(env) ==> Complete(o, chain[|outs|])
    ensures CompleteUnder(env, outs + [o], chain)
  {
    if Faultless(env) {
      var outs' := outs + [o];
      forall k | 0 <= k < |outs'| && k < |chain| && outs'[k].Streamed? ensures Complete(outs'[k], chain[k]) {
        if k < |outs| {
          assert outs'[k] == outs[k];
        }
      }
    }
  }

  /** One step of extract_bios: write the request out if it carries data,
      otherwise skip it without touching anything. */
  method ExtractOne(env: Env, bio: Bio, w: World) returns (o: BioOutcome, w': World)
    requires Sane(env) && WellFormed(w.pool) && WellFormedBio(bio)
    ensures o.Skipped? <==> !HasData(bio)
    ensures o.Skipped? ==> w' == w
    ensures Describes(o, bio)
    ensures w'.acquires == w.acquires + (if HasData(bio) then 1 else 0)
    ensures WellFormed(w'.pool)
    ensures Extends(w'.log, w.log) && Answered(w'.log, |w.log|, env.send)
    ensures Stream(w'.log[|w.log|..]) == Wire(o)
    ensures Valid(w.pool) && !NoneFree(w.pool) ==> w'.pool == w.pool && !o.NoSocket?
    // a request with data goes to write_bio_to_socket: it is turned away
    // exactly when no connection can be had, and in a faultless environment
    // its record goes out complete
    ensures HasData(bio) ==> (o.NoSocket? <==> NoConnection(env, w))
    ensures o.Streamed? && Faultless(env) ==> Complete(o, bio)
  {
    if !HasData(bio) {
      assert w.log[|w.log|..] == [];
      return Skipped, w;
    }
    o, w' := WriteBio(env, bio, w);
    PoolAfterBioValid(w.pool, env.connect(w.acquires));
  }

  /** What extract_bios has done after visiting the first `|outs|`
      requests of the chain, starting from world `w`. */
  ghost predicate Walked(env: Env, chain: seq<Bio>, w: World, outs: seq<BioOutcome>, w': World)
  {
    && |outs| <= |chain|
    && Reports(outs, chain)
    && CompleteUnder(env, outs, chain)
    && WorldAfter(env, chain, w, outs, w')
    && PoolKept(w.pool, w'.pool, outs)
  }

  /** The attempts after `log` were answered by `send` and carry the bytes
      of `outs` in order. */
  predicate Recorded(send: SendOracle, log: seq<Attempt>, outs: seq<BioOutcome>, log': seq<Attempt>)
  {
    Extends(log', log) && Answered(log', |log|, send) && Stream(log'[|log|..]) == WireAll(outs)
  }

  /** The world after the walk has produced `outs`: one acquisition per
      request with data so far, and the outcomes' bytes on the wire in
      order. */
  predicate WorldAfter(env: Env, chain: seq<Bio>, w: World, outs: seq<BioOutcome>, w': World)
    requires |outs| <= |chain|
  {
    && w'.acquires == w.acquires + WithData(chain[..|outs|])
    && WellFormed(w'.pool)
    && Recorded(env.send, w.log, outs, w'.log)
  }

  /** When a connection was free in the starting pool `p0`, every request
      so far was served and the pool `p1` is as it began. */
  predicate PoolKept(p0: Pool, p1: Pool, outs: seq<BioOutcome>)
  {
    Valid(p0) && !NoneFree(p0) ==> p1 == p0 && AllServed(outs)
  }

  /** One acquisition per request with data among the first `n`, and one
      more if request `n` has data, is one per request with data among the
      first `n + 1`. */
  lemma AcquiresSnoc(chain: seq<Bio>, n: nat, a0: nat, a1: nat, a2: nat)
    requires n < |chain|
    requires a1 == a0 + WithData(chain[..n])
    requires a2 == a1 + (if HasData(chain[n]) then 1 else 0)
    ensures a2 == a0 + WithData(chain[..n + 1])
  {
    assert chain[..n + 1][..n] == chain[..n];
  }

  /** The attempts of the walk so far, followed by those of one more
      request, carry the outcomes' bytes in order. */
  lemma WalkedLogSnoc(send: SendOracle, l0: seq<Attempt>, l1: seq<Attempt>, l2: seq<Attempt>,
                      outs: seq<BioOutcome>, o: BioOutcome)
    requires Recorded(send, l0, outs, l1)
    requires Extends(l2, l1) && Answered(l2, |l1|, send) && Stream(l2[|l1|..]) == Wire(o)
    ensures Recorded(send, l0, outs + [o], l2)
  {
    ExtendLog(l0, l1, l2, send);
    WireAllSnoc(outs, o);
  }

  /** The walk's bookkeeping after one more request, whose outcome `o`
      moved the world from `w'` to `next`. */
  lemma AllServedSnoc(outs: seq<BioOutcome>, o: BioOutcome)
    requires AllServed(outs) && !o.NoSocket?
    ensures AllServed(outs + [o])
  {
    var outs' := outs + [o];
    forall k | 0 <= k < |outs'| ensures !outs'[k].NoSocket? {
      if k < |outs| {
        assert outs'[k] == outs[k];
      }
    }
  }

  /** A pool that started with a free connection is still the starting
      pool, and every request so far was served, after one more request. */
  lemma PoolKeptSnoc(p0: Pool, p1: Pool, p2: Pool, outs: seq<BioOutcome>, o: BioOutcome)
    requires PoolKept(p0, p1, outs)
    requires Valid(p1) && !NoneFree(p1) ==> p2 == p1 && !o.NoSocket?
    ensures PoolKept(p0, p2, outs + [o])
  {
    if Valid(p0) && !NoneFree(p0) {
      AllServedSnoc(outs, o);
    }
  }

  /** The world's bookkeeping after one more request, whose outcome `o`
      moved the world from `w'` to `next`. */
  lemma WorldAfterSnoc(env: Env, chain: seq<Bio>, w: World, outs: seq<BioOutcome>, w': World, o: BioOutcome, next: World)
    requires |outs| < |chain| && WorldAfter(env, chain, w, outs, w')
    requires next.acquires == w'.acquires + (if HasData(chain[|outs|]) then 1 else 0)
    requires WellFormed(next.pool)
    requires Extends(next.log, w'.log) && Answered(next.log, |w'.log|, env.send)
    requires Stream(next.log[|w'.log|..]) == Wire(o)
    ensures WorldAfter(env, chain, w, outs + [o], next)
  {
    WalkedLogSnoc(env.send, w.log, w'.log, next.log, outs, o);
    AcquiresSnoc(chain, |outs|, w.acquires, w'.acquires, next.acquires);
    assert |outs + [o]| == |outs| + 1;
  }

  /** The walk's bookkeeping after one more request, whose outcome `o`
      moved the world from `w'` to `next`. */
  lemma WalkedSnoc(env: Env, chain: seq<Bio>, w: World, outs: seq<BioOutcome>, w': World, o: BioOutcome, next: World)
    requires Walked(env, chain, w, outs, w') && |outs| < |chain|
    requires o.Skipped? <==> !HasData(chain[|outs|])
    requires WellFormedBio(chain[|outs|]) ==> Describes(o, chain[|outs|])
    requires next.acquires == w'.acquires + (if HasData(chain[|outs|]) then 1 else 0)
    requires WellFormed(next.pool)
    requires Extends(next.log, w'.log) && Answered(next.log, |w'.log|, env.send)
    requires Stream(next.log[|w'.log|..]) == Wire(o)
    requires Valid(w'.pool) && !NoneFree(w'.pool) ==> next.pool == w'.pool && !o.NoSocket?
    requires o.Streamed? && Faultless(env) ==> Complete(o, chain[|outs|])
    ensures Walked(env, chain, w, outs + [o], next)
  {
    WorldAfterSnoc(env, chain, w, outs, w', o, next);
    PoolKeptSnoc(w.pool, w'.pool, next.pool, outs, o);
    ReportsSnoc(outs, chain, o);
    CompleteUnderSnoc(env, outs, chain, o);
  }

  /** One iteration of extract_bios. */
  method ExtractNext(env: Env, chain: seq<Bio>, w: World, outs: seq<BioOutcome>, w': World)
    returns (outs2: seq<BioOutcome>, w2: World)
    requires Sane(env) && WellFormed(w.pool)
    requires forall i :: 0 <= i < |chain| ==> WellFormedBio(chain[i])
    requires Walked(env, chain, w, outs, w') && |outs| < |chain|
    ensures Walked(env, chain, w, outs2, w2) && |outs2| == |outs| + 1
  {
    var o, next := ExtractOne(env, chain[|outs|], w');
    WalkedSnoc(env, chain, w, outs, w', o, next);
    outs2, w2 := outs + [o], next;
  }

  /** extract_bios: walk the `bi_next` chain in order, writing out every
      request that carries data and skipping the rest. */
  method ExtractBios(env: Env, chain: seq<Bio>, w: World) returns (outs: seq<BioOutcome>, w': World)
    requires Sane(env) && WellFormed(w.pool)
    requires forall i :: 0 <= i < |chain| ==> WellFormedBio(chain[i])
    ensures |outs| == |chain|
    ensures Reports(outs, chain)
    // one connection is asked for per request with data
    ensures w'.acquires == w.acquires + WithData(chain)
    ensures WellFormed(w'.pool)
    ensures Extends(w'.log, w.log) && Answered(w'.log, |w.log|, env.send)
    ensures Stream(w'.log[|w.log|..]) == WireAll(outs)
    // with a free connection at hand, every request gets one and the pool
    // ends as it began
    ensures Valid(w.pool) && !NoneFree(w.pool) ==>
              w'.pool == w.pool && AllServed(outs)
    // in a faultless environment every request that got a connection went
    // out as a complete record
    ensures CompleteUnder(env, outs, chain)
    // so with a free connection at hand and a faultless environment, every
    // request with data is written out whole
    ensures Valid(w.pool) && !NoneFree(w.pool) && Faultless(env) ==>
              forall k :: 0 <= k < |chain| && HasData(chain[k]) ==> Complete(outs[k], chain[k])
  {
    outs, w' := [], w;
    assert w.log[|w.log|..] == [];
    while |outs| < |chain|
      invariant Walked(env, chain, w, outs, w')
      decreases |chain| - |outs|
    {
      outs, w' := ExtractNext(env, chain, w, outs, w');
    }
    assert chain[..|outs|] == chain;
  }
}

=== FILE: interception.dfy ===
/** Where requests enter the tracker. From kernel 5.9 on, a global hook on
    `submit_bio_noacct` runs `tracing_fn` for every request and then passes
    the request on; before 5.9, `misc_make_request_fn` replaces the request
    handler of each tracked device and delegates to the saved one. The
    hook's registration state is the `tracerRegistered` flag. */
module Interception {
  import opened Common
  import opened Request
  import opened Registry
  import opened SocketPool
  import opened Transport
  import opened Extractor

  /** Every request of a chain satisfies the kernel's guarantees. */
  predicate ChainWellFormed(chain: seq<Bio>)
  {
    forall i :: 0 <= i < |chain| ==> WellFormedBio(chain[i])
  }

  /** Every extraction is a full walk of the chain. */
  predicate EachReports(extractions: seq<seq<BioOutcome>>, chain: seq<Bio>)
  {
    forall k :: 0 <= k < |extractions| ==> |extractions[k]| == |chain| && Reports(extractions[k], chain)
  }

  lemma EachReportsSnoc(extractions: seq<seq<BioOutcome>>, chain: seq<Bio>, outs: seq<BioOutcome>)
    requires EachReports(extractions, chain)
    requires |outs| == |chain| && Reports(outs, chain)
    ensures EachReports(extractions + [outs], chain)
  {
    var e' := extractions + [outs];
    forall k | 0 <= k < |e'| ensures |e'[k]| == |chain| && Reports(e'[k], chain) {
      if k < |extractions| {
        assert e'[k] == extractions[k];
      }
    }
  }

  /** In a faultless environment, every extraction's streamed requests went
      out as complete records. */
  ghost predicate EachComplete(env: Env, extractions: seq<seq<BioOutcome>>, chain: seq<Bio>)
  {
    forall k :: 0 <= k < |extractions| ==> CompleteUnder(env, extractions[k], chain)
  }

  lemma EachCompleteSnoc(env: Env, extractions: seq<seq<BioOutcome>>, chain: seq<Bio>, outs: seq<BioOutcome>)
    requires EachComplete(env, extractions, chain)
    requires CompleteUnder(env, outs, chain)
    ensures EachComplete(env, extractions + [outs], chain)
  {
    var e' := extractions + [outs];
    forall k | 0 <= k < |e'| ensures CompleteUnder(env, e'[k], chain) {
      if k < |extractions| {
        assert e'[k] == extractions[k];
      }
    }
  }

  /** The bytes a run of extractions put on the wire, in order. */
  function WireEach(extractions: seq<seq<BioOutcome>>): seq<byte>
  {
    if |extractions| == 0 then []
    else WireEach(extractions[..|extractions| - 1]) + WireAll(extractions[|extractions| - 1])
  }

  lemma WireEachSnoc(extractions: seq<seq<BioOutcome>>, outs: seq<BioOutcome>)
    ensures WireEach(extractions + [outs]) == WireEach(extractions) + WireAll(outs)
  {
    assert (extractions + [outs])[..|extractions|] == extractions;
  }

  /** Extractions a request gets: one per node naming its device, when it
      is a write. */
  function Wanted(list: DeviceList, bio: Bio): nat
  {
    if IsWrite(bio) then Occurrences(list, bio.device) else 0
  }

  /** What tracing_fn has done after visiting the first `i` nodes of the
      list, starting from world `w`. */
  ghost predicate Traced(env: Env, list: DeviceList, chain: seq<Bio>, w: World, i: nat,
                         extractions: seq<seq<BioOutcome>>, w': World)
    requires |chain| > 0
  {
    && i <= |list|
    && |extractions| + Wanted(list[i..], chain[0]) == Wanted(list, chain[0])
    && EachReports(extractions, chain)
    && EachComplete(env, extractions, chain)
    && (|extractions| == 0 ==> w' == w)
    && WellFormed(w'.pool)
    && Extends(w'.log, w.log) && Answered(w'.log, |w.log|, env.send)
    && Stream(w'.log[|w.log|..]) == WireEach(extractions)
    && (Valid(w.pool) && !NoneFree(w.pool) ==> w'.pool == w.pool)
  }

  /** A node that does not name the request's device, or a read, adds no
      extraction. */
  lemma TracedSkip(env: Env, list: DeviceList, chain: seq<Bio>, w: World, i: nat,
                   extractions: seq<seq<BioOutcome>>, w': World)
    requires |chain| > 0 && i < |list|
    requires Traced(env, list, chain, w, i, extractions, w')
    requires !(list[i].device == chain[0].device && IsWrite(chain[0]))
    ensures Traced(env, list, chain, w, i + 1, extractions, w')
  {
    assert list[i..][1..] == list[i + 1..];
  }

  /** A matching node adds the extraction `outs`, which moved the world
      from `w'` to `next`. */
  lemma TracedExtract(env: Env, list: DeviceList, chain: seq<Bio>, w: World, i: nat,
                      extractions: seq<seq<BioOutcome>>, w': World, outs: seq<BioOutcome>, next: World)
    requires |chain| > 0 && i < |list|
    requires Traced(env, list, chain, w, i, extractions, w')
    requires list[i].device == chain[0].device && IsWrite(chain[0])
    requires |outs| == |chain| && Reports(outs, chain)
    requires CompleteUnder(env, outs, chain)
    requires WellFormed(next.pool)
    requires Extends(next.log, w'.log) && Answered(next.log, |w'.log|, env.send)
    requires Stream(next.log[|w'.log|..]) == WireAll(outs)
    requires Valid(w'.pool) && !NoneFree(w'.pool) ==> next.pool == w'.pool
    ensures Traced(env, list, chain, w, i + 1, extractions + [outs], next)
  {
    assert list[i..][1..] == list[i + 1..];
    ExtendLog(w.log, w'.log, next.log, env.send);
    EachReportsSnoc(extractions, chain, outs);
    EachCompleteSnoc(env, extractions, chain, outs);
    WireEachSnoc(extractions, outs);
  }

  /** One node of tracing_fn's list walk. */
  method VisitNode(env: Env, list: DeviceList, chain: seq<Bio>, w: World, i: nat,
                   extractions: seq<seq<BioOutcome>>, w': World)
    returns (extractions2: seq<seq<BioOutcome>>, w2: World)
    requires |chain| > 0
    requires Sane(env) && WellFormed(w.pool) && ChainWellFormed(chain)
    requires Traced(env, list, chain, w, i, extractions, w') && i < |list|
    ensures Traced(env, list, chain, w, i + 1, extractions2, w2)
    // a node naming another device, or a read, changes nothing; a matching
    // node adds one extraction
    ensures !(list[i].device == chain[0].device && IsWrite(chain[0])) ==> extractions2 == extractions && w2 == w'
    ensures list[i].device == chain[0].device && IsWrite(chain[0]) ==>
              |extractions2| == |extractions| + 1 && extractions2[..|extractions|] == extractions
  {
    if list[i].device == chain[0].device && IsWrite(chain[0]) {
      var outs, next := ExtractBios(env, chain, w');
      TracedExtract(env, list, chain, w, i, extractions, w', outs, next);
      extractions2, w2 := extractions + [outs], next;
      assert extractions2[..|extractions|] == extractions;
    } else {
      TracedSkip(env, list, chain, w, i, extractions, w');
      extractions2, w2 := extractions, w';
    }
  }

  /** The list walk of tracing_fn: every node visited in order. */
  method WalkList(env: Env, list: DeviceList, chain: seq<Bio>, w: World)
    returns (extractions: seq<seq<BioOutcome>>, w': World)
    requires |chain| > 0
    requires Sane(env) && WellFormed(w.pool) && ChainWellFormed(chain)
    ensures Traced(env, list, chain, w, |list|, extractions, w')
  {
    extractions, w' := [], w;
    var i := 0;
    assert w.log[|w.log|..] == [];
    while i < |list|
      invariant Traced(env, list, chain, w, i, extractions, w')
    {
      extractions, w' := VisitNode(env, list, chain, w, i, extractions, w');
      i := i + 1;
    }
  }

  /** tracing_fn: for every node of the device list naming the request's
      device, extract the whole chain when the request is a write; then pass
      the initial request on to the real `submit_bio_noacct`. Returns one
      extraction per matching node and the requests passed on. */
  method TracingFn(env: Env, list: DeviceList, chain: seq<Bio>, w: World)
    returns (extractions: seq<seq<BioOutcome>>, passedOn: seq<Bio>, w': World)
    requires |chain| > 0
    requires Sane(env) && WellFormed(w.pool) && ChainWellFormed(chain)
    // the initial request is passed on exactly once, whatever the extraction did
    ensures passedOn == [chain[0]]
    ensures |extractions| == (if IsWrite(chain[0]) then Occurrences(list, chain[0].device) else 0)
    ensures Unique(list) ==> |extractions| <= 1
    ensures Unique(list) ==> (|extractions| == 1 <==> IsWrite(chain[0]) && chain[0].device in Devices(list))
    ensures EachReports(extractions, chain)
    // in a faultless environment every streamed request went out whole
    ensures EachComplete(env, extractions, chain)
    ensures |extractions| == 0 ==> w' == w
    ensures WellFormed(w'.pool)
    ensures Extends(w'.log, w.log) && Answered(w'.log, |w.log|, env.send)
    // the new attempts carry exactly the bytes the extractions report, in order
    ensures Stream(w'.log[|w.log|..]) == WireEach(extractions)
    // every connection taken is handed back: a pool with a free connection
    // ends exactly as it began
    ensures Valid(w.pool) && !NoneFree(w.pool) ==> w'.pool == w.pool
  {
    extractions, w' := WalkList(env, list, chain, w);
    passedOn := [chain[0]];
    if Unique(list) {
      UniqueOccurrences(list, chain[0].device);
    }
  }

  /** Where misc_make_request_fn sends a request after extraction: through
      the handler saved in a node, or nowhere (`BLK_QC_T_NONE`, the request is
      never submitted). */
  datatype Dispatch = Delegated(via: Node) | Dropped

  /** misc_make_request_fn (before 5.9): extract the chain when the request
      is a write, then find the first node naming the request's device and
      delegate to the handler saved in it. */
  method MiscMakeRequest(env: Env, list: DeviceList, chain: seq<Bio>, w: World)
    returns (extracted: Option<seq<BioOutcome>>, dispatch: Dispatch, w': World)
    requires |chain| > 0
    requires Sane(env) && WellFormed(w.pool) && ChainWellFormed(chain)
    ensures extracted.Some? <==> IsWrite(chain[0])
    ensures extracted.Some? ==> |extracted.value| == |chain| && Reports(extracted.value, chain)
    // in a faultless environment every streamed request went out whole
    ensures extracted.Some? ==> CompleteUnder(env, extracted.value, chain)
    ensures extracted.None? ==> w' == w
    ensures WellFormed(w'.pool)
    ensures Extends(w'.log, w.log) && Answered(w'.log, |w.log|, env.send)
    // the new attempts carry exactly the bytes the extraction reports
    ensures extracted.Some? ==> Stream(w'.log[|w.log|..]) == WireAll(extracted.value)
    // every connection taken is handed back: a pool with a free connection
    // ends exactly as it began
    ensures Valid(w.pool) && !NoneFree(w.pool) ==> w'.pool == w.pool
    // a request of an untracked device is dropped; a tracked one goes
    // through the first node naming it
    ensures dispatch.Dropped? <==> chain[0].device !in Devices(list)
    ensures dispatch.Delegated? ==> exists i :: IsFirstMatch(list, chain[0].device, i) && list[i] == dispatch.via
  {
    extracted, w' := None, w;
    if IsWrite(chain[0]) {
      var outs;
      outs, w' := ExtractBios(env, chain, w);
      extracted := Some(outs);
    }
    var found := Lookup(list, chain[0].device);
    dispatch := if found.Some? then Delegated(found.value) else Dropped;
  }

  /** The registration state of the global hook: the `tracerRegistered`
      flag and how often the hook has been unregistered from ftrace. */
  datatype Tracer = Tracer(registered: bool, unregistrations: nat)

  datatype Registration = Registration(rc: int, tracer: Tracer)

  /** register_tracer_filter: set the filter (result `filterRc`), then
      register the hook (result `registerRc`); the first non-zero result is
      returned, and only full success sets the flag. */
  function RegisterTracer(t: Tracer, filterRc: int, registerRc: int): (r: Registration)
    ensures r.tracer.unregistrations == t.unregistrations
    ensures r.rc == 0 <==> filterRc == 0 && registerRc == 0
    ensures filterRc != 0 ==> r.rc == filterRc
    ensures filterRc == 0 && registerRc != 0 ==> r.rc == registerRc
    ensures r.tracer.registered <==> t.registered || r.rc == 0
  {
    if filterRc != 0 then Registration(filterRc, t)
    else if registerRc != 0 then Registration(registerRc, t)
    else Registration(0, t.(registered := true))
  }

  /** unregister_tracer_filter: unregister the hook if the flag is set. The
      flag itself is never cleared, and a failure is only logged. */
  function UnregisterTracer(t: Tracer): (r: Tracer)
    // the flag is never cleared
    ensures r.registered == t.registered
    ensures r.unregistrations == t.unregistrations + (if t.registered then 1 else 0)
  {
    if t.registered then t.(unregistrations := t.unregistrations + 1) else t
  }

  /** Registration failure leaves an unregistered hook untouched by a later
      unregistration; success makes the next unregistration unhook it. */
  lemma RegisterThenUnregister(filterRc: int, registerRc: int)
    ensures var r := RegisterTracer(Tracer(false, 0), filterRc, registerRc);
            UnregisterTracer(r.tracer).unregistrations == (if r.rc == 0 then 1 else 0)
  {
  }
}

=== FILE: registry.dfy ===
/** The tracked-device list (`deviceList`): a linked list of nodes, each naming
    one block device and, in the per-device interception mode used before
    kernel 5.9, the request handler that was installed on the device before the
    tracer replaced it. The list is modelled as a sequence whose index 0 is the
    node the list head points at. */
module Registry {
  import opened Common

  /** Opaque identity of a request handler (`make_request_fn`). */
  type Handler = nat

  /** One list node; `original` is absent in the global-hook mode, where the
      node carries no saved handler. */
  datatype Node = Node(device: DeviceId, original: Option<Handler>)

  type DeviceList = seq<Node>

  datatype AddResult = AddResult(rc: int, list: DeviceList)

  /** The devices named by the list's nodes. */
  function Devices(list: DeviceList): (ds: set<DeviceId>)
    ensures forall i :: 0 <= i < |list| ==> list[i].device in ds
    ensures forall d :: d in ds ==> exists i :: 0 <= i < |list| && list[i].device == d
  {
    set i | 0 <= i < |list| :: list[i].device
  }

  /** No device is named by two nodes. */
  predicate Unique(list: DeviceList)
  {
    forall i, j :: 0 <= i < j < |list| ==> list[i].device != list[j].device
  }

  /** `i` is the position of the first node naming `d`. */
  predicate IsFirstMatch(list: DeviceList, d: DeviceId, i: int)
  {
    && 0 <= i < |list|
    && list[i].device == d
    && forall j :: 0 <= j < i ==> list[j].device != d
  }

  /** Number of nodes naming `d`. */
  function Occurrences(list: DeviceList, d: DeviceId): nat
  {
    if |list| == 0 then 0
    else (if list[0].device == d then 1 else 0) + Occurrences(list[1..], d)
  }

  /** add_block_device_to_devicelist: scan for a node naming the device and
      fail with -1 if there is one; otherwise allocate a node (the allocation
      outcome is `allocOk`) and link it in at the head of the list. */
  function Add(list: DeviceList, d: DeviceId, original: Option<Handler>, allocOk: bool): (r: AddResult)
    ensures d in Devices(list) ==> r.rc == -1 && r.list == list
    ensures d !in Devices(list) && !allocOk ==> r.rc == -ENOMEM && r.list == list
    ensures d !in Devices(list) && allocOk ==>
              && r.rc == 0
              && |r.list| == |list| + 1
              && r.list[0] == Node(d, original)
              && r.list[1..] == list
    ensures r.rc == 0 || r.list == list
    ensures Devices(r.list) == Devices(list) + (if r.rc == 0 then {d} else {})
    ensures Unique(list) ==> Unique(r.list)
  {
    if d in Devices(list) then AddResult(-1, list)
    else if !allocOk then AddResult(-ENOMEM, list)
    else
      var list' := [Node(d, original)] + list;
      assert list'[1..] == list;
      AddResult(0, list')
  }

  /** Position of the first node naming `d`, or `|list|` when none does:
      the stopping point of a scan from the head. */
  function FirstIndex(list: DeviceList, d: DeviceId): (i: nat)
    ensures i <= |list|
    ensures i < |list| ==> IsFirstMatch(list, d, i)
    ensures i == |list| ==> d !in Devices(list)
    decreases |list|
  {
    if |list| == 0 then 0
    else if list[0].device == d then 0
    else
      var i := 1 + FirstIndex(list[1..], d);
      assert forall j :: 1 <= j < |list| ==> list[j] == list[1..][j - 1];
      i
  }

  /** remove_block_device_from_devicelist: unlink and free the first node
      naming the device; when no node names it the list is left as it is
      (the source only logs a warning). */
  function Remove(list: DeviceList, d: DeviceId): (r: DeviceList)
    ensures d !in Devices(list) ==> r == list
    ensures forall i :: IsFirstMatch(list, d, i) ==> r == list[..i] + list[i + 1..]
    ensures d in Devices(list) ==> |r| == |list| - 1
  {
    var i := FirstIndex(list, d);
    if i == |list| then list else list[..i] + list[i + 1..]
  }

  /** unregister_block_device, pre-5.9 mode: every node naming the device
      writes its saved handler back into the device's queue, so the handler
      that ends up installed is the one of the LAST matching node. */
  function RestoreTarget(list: DeviceList, d: DeviceId): (r: Option<Node>)
    ensures r.None? <==> d !in Devices(list)
    ensures r.Some? ==> exists i :: 0 <= i < |list| && list[i] == r.value && r.value.device == d
                                    && forall j :: i < j < |list| ==> list[j].device != d
    decreases |list|
  {
    if |list| == 0 then None
    else
      var later := RestoreTarget(list[1..], d);
      DevicesCons(list);
      if later.Some? then
        var i :| 0 <= i < |list[1..]| && list[1..][i] == later.value && later.value.device == d
                 && forall j :: i < j < |list[1..]| ==> list[1..][j].device != d;
        assert list[i + 1] == later.value;
        later
      else if list[0].device == d then Some(list[0])
      else None
  }

  /** The first node naming `d`, as a scan from the head finds it. */
  function Lookup(list: DeviceList, d: DeviceId): (r: Option<Node>)
    ensures r.None? <==> d !in Devices(list)
    ensures r.Some? ==> exists i :: IsFirstMatch(list, d, i) && list[i] == r.value
  {
    var i := FirstIndex(list, d);
    if i == |list| then None else Some(list[i])
  }

  /** The devices of a non-empty list: its head's and its tail's. */
  lemma DevicesCons(list: DeviceList)
    requires |list| > 0
    ensures Devices(list) == {list[0].device} + Devices(list[1..])
  {
    assert Devices(list) == {list[0].device} + Devices(list[1..]);
  }

  /** A list is duplicate-free exactly when its tail is and its head device
      does not reappear in the tail. */
  lemma UniqueCons(list: DeviceList)
    requires |list| > 0
    ensures Devices(list) == {list[0].device} + Devices(list[1..])
    ensures Unique(list) <==> Unique(list[1..]) && list[0].device !in Devices(list[1..])
  {
    DevicesCons(list);
    if Unique(list[1..]) && list[0].device !in Devices(list[1..]) {
      forall i, j | 0 <= i < j < |list| ensures list[i].device != list[j].device {
        if i > 0 {
          assert list[i] == list[1..][i - 1];
        }
        assert list[j] == list[1..][j - 1];
      }
    }
  }

  /** In a list without duplicates, a device is named once or not at all. */
  lemma {:induction false} UniqueOccurrences(list: DeviceList, d: DeviceId)
    requires Unique(list)
    ensures Occurrences(list, d) == (if d in Devices(list) then 1 else 0)
    decreases |list|
  {
    if |list| > 0 {
      UniqueCons(list);
      UniqueOccurrences(list[1..], d);
    }
  }

  /** Adding a device that is already tracked fails and a second add of the
      same device after a successful one always fails: the list never holds
      the same device twice when built by Add alone. */
  lemma AddTwiceFails(list: DeviceList, d: DeviceId, h1: Option<Handler>, h2: Option<Handler>)
    requires Add(list, d, h1, true).rc == 0
    ensures Add(Add(list, d, h1, true).list, d, h2, true) == AddResult(-1, Add(list, d, h1, true).list)
  {
  }

  /** Removing a device right after adding it gives back the list as it was. */
  lemma {:induction false} RemoveUndoesAdd(list: DeviceList, d: DeviceId, h: Option<Handler>)
    requires d !in Devices(list)
    ensures Remove(Add(list, d, h, true).list, d) == list
  {
    var l' := Add(list, d, h, true).list;
    assert IsFirstMatch(l', d, 0);
  }

  /** The handler restored on unregistration is the one saved when the device
      was added (pre-5.9 swap and restore). */
  lemma {:induction false} RestoreGivesSavedHandler(list: DeviceList, d: DeviceId, h: Option<Handler>)
    requires Unique(list)
    requires d !in Devices(list)
    ensures RestoreTarget(Add(list, d, h, true).list, d) == Some(Node(d, h))
  {
    var l' := Add(list, d, h, true).list;
    var r := RestoreTarget(l', d);
    assert r.Some?;
    var i :| 0 <= i < |l'| && l'[i] == r.value && r.value.device == d
             && forall j :: i < j < |l'| ==> l'[j].device != d;
    assert l'[1..] == list;
  }

  /** Dropping node `i`: the nodes before it keep their places, the ones
      after it move down by one. */
  lemma DropNode(list: DeviceList, i: nat)
    requires i < |list|
    ensures var r := list[..i] + list[i + 1..];
            && |r| == |list| - 1
            && (forall k :: 0 <= k < i ==> r[k] == list[k])
            && (forall k :: i <= k < |r| ==> r[k] == list[k + 1])
  {
  }

  /** Every device left after dropping node `i` of a list without
      duplicates is another device of the list. */
  lemma DroppedDevicesShrink(list: DeviceList, i: nat)
    requires i < |list| && Unique(list)
    ensures Devices(list[..i] + list[i + 1..]) <= Devices(list) - {list[i].device}
  {
    var r := list[..i] + list[i + 1..];
    DroppedNodesDiffer(list, i);
    forall e | e in Devices(r) ensures e in Devices(list) - {list[i].device} {
      var k :| 0 <= k < |r| && r[k].device == e;
    }
  }

  /** Each node left after dropping node `i` of a list without duplicates
      is a node of the list naming another device. */
  lemma DroppedNodesDiffer(list: DeviceList, i: nat)
    requires i < |list| && Unique(list)
    ensures var r := list[..i] + list[i + 1..];
            forall k :: 0 <= k < |r| ==> r[k].device in Devices(list) && r[k].device != list[i].device
  {
    var r := list[..i] + list[i + 1..];
    DropNode(list, i);
    forall k | 0 <= k < |r| ensures r[k].device in Devices(list) && r[k].device != list[i].device {
      if k < i {
        assert r[k] == list[k];
        assert list[k].device != list[i].device;
      } else {
        assert r[k] == list[k + 1];
        assert list[i].device != list[k + 1].device;
      }
    }
  }

  /** Every other device of the list survives dropping node `i`. */
  lemma DroppedDevicesKept(list: DeviceList, i: nat)
    requires i < |list|
    ensures Devices(list) - {list[i].device} <= Devices(list[..i] + list[i + 1..])
  {
    var r := list[..i] + list[i + 1..];
    DropNode(list, i);
    forall e | e in Devices(list) - {list[i].device} ensures e in Devices(r) {
      var j :| 0 <= j < |list| && list[j].device == e;
      if j < i {
        assert r[j] == list[j];
      } else {
        assert j != i;
        assert r[j - 1] == list[j];
      }
    }
  }

  /** Removing a device drops exactly that device from the device set of a
      list without duplicates. */
  lemma RemoveDevices(list: DeviceList, d: DeviceId)
    requires Unique(list)
    ensures Devices(Remove(list, d)) == Devices(list) - {d}
  {
    var i := FirstIndex(list, d);
    if i < |list| {
      assert IsFirstMatch(list, d, i);
      assert Remove(list, d) == list[..i] + list[i + 1..];
      DroppedDevicesShrink(list, i);
      DroppedDevicesKept(list, i);
    }
  }

  /** Removing a device keeps a list free of duplicates. */
  lemma RemoveKeepsUnique(list: DeviceList, d: DeviceId)
    requires Unique(list)
    ensures Unique(Remove(list, d))
  {
    var i := FirstIndex(list, d);
    if i < |list| {
      assert IsFirstMatch(list, d, i);
      assert Remove(list, d) == list[..i] + list[i + 1..];
      DroppedUnique(list, i);
    }
  }

  /** Dropping any node keeps a list free of duplicates. */
  lemma DroppedUnique(list: DeviceList, i: nat)
    requires i < |list| && Unique(list)
    ensures Unique(list[..i] + list[i + 1..])
  {
    var r := list[..i] + list[i + 1..];
    DropNode(list, i);
    forall a, b | 0 <= a < b < |r| ensures r[a].device != r[b].device {
      var a', b' := if a < i then a else a + 1, if b < i then b else b + 1;
      assert r[a] == list[a'] && r[b] == list[b'] && a' < b';
      assert list[a'].device != list[b'].device;
    }
  }

  /** Removing a device from a list without duplicates leaves no node for it
      and keeps the list free of duplicates. */
  lemma RemoveFromUnique(list: DeviceList, d: DeviceId)
    requires Unique(list)
    ensures Devices(Remove(list, d)) == Devices(list) - {d}
    ensures Unique(Remove(list, d))
  {
    RemoveDevices(list, d);
    RemoveKeepsUnique(list, d);
  }

  /** The node found for a freshly added device carries the handler saved
      with it. */
  lemma {:induction false} LookupAfterAdd(list: DeviceList, d: DeviceId, h: Option<Handler>)
    requires d !in Devices(list)
    ensures Lookup(Add(list, d, h, true).list, d) == Some(Node(d, h))
  {
    var l' := Add(list, d, h, true).list;
    var i :| IsFirstMatch(l', d, i) && l'[i] == Lookup(l', d).value;
    assert IsFirstMatch(l', d, 0);
  }

  /** Without duplicates, the node a request is delegated through (the first
      match) is the node whose handler unregistration restores (the last
      match). */
  lemma {:induction false} LookupAgreesWithRestore(list: DeviceList, d: DeviceId)
    requires Unique(list)
    ensures Lookup(list, d) == RestoreTarget(list, d)
  {
    var a, b := Lookup(list, d), RestoreTarget(list, d);
    if a.Some? {
      var i :| IsFirstMatch(list, d, i) && list[i] == a.value;
      var j :| 0 <= j < |list| && list[j] == b.value && b.value.device == d
               && forall k :: j < k < |list| ==> list[k].device != d;
      assert i == j;
    }
  }

  /** In a list without duplicates, unregistering the device at the head
      of any suffix restores that very node's handler. */
  lemma RestoreHead(list: DeviceList, i: nat)
    requires Unique(list) && i < |list|
    ensures RestoreTarget(list[i..], list[i].device) == Some(list[i])
  {
    var r, d := list[i..], list[i].device;
    var target := RestoreTarget(r, d);
    var k :| 0 <= k < |r| && r[k] == target.value && target.value.device == d
             && forall j :: k < j < |r| ==> r[j].device != d;
    assert r[k] == list[i + k];
  }

  /** unregister_block_devices: walk a snapshot of the list and unregister
      each node's device in turn (restoring its handler, then removing it).
      Returns the emptied list and, per visited node, the node whose handler
      was written back. */
  method RemoveAll(list: DeviceList) returns (r: DeviceList, restored: seq<Option<Node>>)
    ensures r == []
    ensures |restored| == |list|
    ensures Unique(list) ==> forall i :: 0 <= i < |list| ==> restored[i] == Some(list[i])
  {
    r := list;
    restored := [];
    var i := 0;
    while i < |list|
      invariant 0 <= i <= |list|
      invariant r == list[i..]
      invariant |restored| == i
      invariant Unique(list) ==> forall k :: 0 <= k < i ==> restored[k] == Some(list[k])
    {
      var d := list[i].device;
      var target := RestoreTarget(r, d);
      if Unique(list) {
        RestoreHead(list, i);
      }
      RemoveHead(list, i);
      r := Remove(r, d);
      assert forall k :: 0 <= k < i ==> (restored + [target])[k] == restored[k];
      restored := restored + [target];
      i := i + 1;
    }
  }

  /** Removing the device of the first node of `list[i..]` drops exactly
      that node. */
  lemma RemoveHead(list: DeviceList, i: nat)
    requires i < |list|
    ensures Remove(list[i..], list[i].device) == list[i + 1..]
  {
    var r := list[i..];
    assert IsFirstMatch(r, list[i].device, 0);
    assert r[..0] + r[1..] == list[i + 1..];
  }
}

=== FILE: request.dfy ===
/** Block I/O requests (`struct bio`) as the tracker sees them: the device
    they target, their operation, their starting sector, the disk name of
    their device, and their payload as an ordered list of segments. A chain of
    requests linked through `bi_next` is a sequence whose first element is the
    request handed to the hook. */
module Request {
  import opened Common

  /** Request operations of the Linux block layer that matter here. */
  datatype Op = Read | Write | Flush | Discard | SecureErase | WriteZeroes

  datatype Bio = Bio(device: DeviceId, op: Op, sector: u64, diskName: seq<byte>, segments: seq<seq<byte>>)

  /** The block layer's operation codes (`REQ_OP_*`). */
  function OpCode(op: Op): nat
  {
    match op
    case Read => 0
    case Write => 1
    case Flush => 2
    case Discard => 3
    case SecureErase => 5
    case WriteZeroes => 9
  }

  /** `bio_data_dir(bio) == WRITE`: the block layer treats every odd
      operation code as a write. */
  predicate IsWrite(bio: Bio)
  {
    OpCode(bio.op) % 2 == 1
  }

  /** Total payload bytes (`bi_size`). */
  function Size(bio: Bio): nat
  {
    |Flatten(bio.segments)|
  }

  /** `bio_has_data`: a non-empty payload of an operation that carries data
      (discard, secure erase and write-zeroes describe a range without
      carrying its bytes). */
  predicate HasData(bio: Bio)
  {
    Size(bio) > 0 && bio.op !in {Discard, SecureErase, WriteZeroes}
  }

  /** What the kernel guarantees of a request reaching the tracker: a disk
      name that fits the 32-byte field with its terminating NUL and contains
      no NUL itself, and a 32-bit `bi_size`. */
  predicate WellFormedBio(bio: Bio)
  {
    && |bio.diskName| < NameLen
    && (forall k :: 0 <= k < |bio.diskName| ==> bio.diskName[k] != 0)
    && Size(bio) < 0x1_0000_0000
  }
}

=== FILE: socketpool.dfy ===
/** The connection pool of socketpool.c: a fixed array of `MaxSockets`
    entries, of which the first `size` are live, each pairing a kernel socket
    with an in-use flag. Socket creation and connection are an oracle
    (`Connect`); the spinlock is not modelled, every operation is one atomic
    step. */
module SocketPool {
  import opened Common

  /** Opaque identity of a kernel socket; `Null` is the NULL pointer. */
  type SocketHandle = nat
  const Null: SocketHandle := 0

  datatype Entry = Entry(socket: SocketHandle, inUse: bool)

  datatype Pool = Pool(entries: seq<Entry>, size: nat, minSize: nat, maxSize: nat, ip: seq<char>, port: u16)

  /** What creating and connecting one socket yielded (create_socket, then connect). */
  datatype Connect = CreateFailed(rc: Errno) | ConnectFailed(rc: Errno) | Connected(sock: SocketHandle)

  datatype InitResult = InitResult(rc: int, pool: Pool)
  datatype Acquired = Acquired(sock: SocketHandle, pool: Pool)
  datatype Cleaned = Cleaned(destroyed: seq<SocketHandle>, pool: Pool)

  /** The pool as a zero-initialised static object, before any initialisation. */
  const Zeroed: Pool := Pool(seq(MaxSockets, _ => Entry(Null, false)), 0, 0, 0, [], 0)

  /** The kernel's contract for one create-and-connect: a connected socket is
      never NULL. */
  predicate HonestConnect(c: Connect)
  {
    c.Connected? ==> c.sock != Null
  }

  /** Shape the C array imposes: `MaxSockets` slots, and every index the
      operations read or write lies inside the array. */
  predicate WellFormed(p: Pool)
  {
    && |p.entries| == MaxSockets
    && p.size <= MaxSockets
    && p.maxSize <= MaxSockets
  }

  /** Every live entry holds a real socket. */
  predicate LiveNonNull(p: Pool)
    requires WellFormed(p)
  {
    forall i :: 0 <= i < p.size ==> p.entries[i].socket != Null
  }

  /** The state a successfully initialised pool keeps: configured bounds,
      `minSize <= size <= maxSize`, and distinct non-NULL live sockets. */
  predicate Valid(p: Pool)
  {
    && WellFormed(p)
    && p.minSize == MinSockets
    && p.maxSize == MaxSockets
    && p.minSize <= p.size <= p.maxSize
    && LiveNonNull(p)
    && forall i, j :: 0 <= i < j < p.size ==> p.entries[i].socket != p.entries[j].socket
  }

  /** `s` is not the socket of any live entry. */
  predicate FreshFor(p: Pool, s: SocketHandle)
    requires WellFormed(p)
  {
    forall i :: 0 <= i < p.size ==> p.entries[i].socket != s
  }

  /** `i` is the lowest live index whose entry is free. */
  predicate IsFirstFree(p: Pool, i: int)
    requires WellFormed(p)
  {
    && 0 <= i < p.size
    && !p.entries[i].inUse
    && forall j :: 0 <= j < i ==> p.entries[j].inUse
  }

  /** Every live entry is in use. */
  predicate NoneFree(p: Pool)
    requires WellFormed(p)
  {
    forall i :: 0 <= i < p.size ==> p.entries[i].inUse
  }

  /** `i` is the lowest live index holding socket `s`. */
  predicate IsFirstWith(p: Pool, s: SocketHandle, i: int)
    requires WellFormed(p)
  {
    && 0 <= i < p.size
    && p.entries[i].socket == s
    && forall j :: 0 <= j < i ==> p.entries[j].socket != s
  }

  /** Number of in-use entries among the first `n` slots. */
  function InUseCount(entries: seq<Entry>, n: nat): nat
    requires n <= |entries|
  {
    if n == 0 then 0 else InUseCount(entries, n - 1) + (if entries[n - 1].inUse then 1 else 0)
  }

  /** socket_pool_init: record the bounds and the port, copy the collector
      address (its allocation outcome is `ipAllocOk`), then create and connect
      `size` sockets in slot order, stopping at the first failure. `connect(k)`
      is what the kernel yields for slot `k`. */
  function Init(p: Pool, ip: seq<char>, port: u16, ipAllocOk: bool, connect: nat -> Connect): (r: InitResult)
    requires |p.entries| == MaxSockets
    ensures r.pool.size == MinSockets && r.pool.minSize == MinSockets && r.pool.maxSize == MaxSockets
    ensures r.pool.port == port
    ensures WellFormed(r.pool)
    ensures r.rc == 0 <==> ipAllocOk && forall k :: 0 <= k < MinSockets ==> connect(k).Connected?
    ensures !ipAllocOk ==> r.rc == -ENOMEM
    ensures ipAllocOk && r.rc != 0 ==>
              exists k :: 0 <= k < MinSockets && !connect(k).Connected? && r.rc == connect(k).rc
                          && forall j :: 0 <= j < k ==> connect(j).Connected?
    ensures r.rc == 0 ==> (&& r.pool.ip == ip
                           && forall i :: 0 <= i < MinSockets ==> r.pool.entries[i] == Entry(connect(i).sock, false))
    ensures forall i :: MinSockets <= i < MaxSockets ==> r.pool.entries[i] == p.entries[i]
  {
    var p1 := p.(size := MinSockets, minSize := MinSockets, maxSize := MaxSockets, port := port);
    if !ipAllocOk then InitResult(-ENOMEM, p1.(ip := []))
    else InitSlots(p1.(ip := ip), 0, connect)
  }

  /** The slot-filling loop of socket_pool_init, from slot `index` on. */
  function InitSlots(p: Pool, index: nat, connect: nat -> Connect): (r: InitResult)
    requires WellFormed(p)
    requires index <= p.size
    ensures r.pool == p.(entries := r.pool.entries)
    ensures WellFormed(r.pool)
    ensures r.rc == 0 <==> forall k :: index <= k < p.size ==> connect(k).Connected?
    ensures r.rc != 0 ==>
              exists k :: index <= k < p.size && !connect(k).Connected? && r.rc == connect(k).rc
                          && forall j :: index <= j < k ==> connect(j).Connected?
    ensures r.rc == 0 ==> forall i :: index <= i < p.size ==> r.pool.entries[i] == Entry(connect(i).sock, false)
    ensures forall i :: 0 <= i < MaxSockets && !(index <= i < p.size) ==> r.pool.entries[i] == p.entries[i]
    decreases p.size - index
  {
    if index == p.size then InitResult(0, p)
    else
      match connect(index)
      case CreateFailed(rc) => InitResult(rc, p)
      case ConnectFailed(rc) => InitResult(rc, p)
      case Connected(s) =>
        InitSlots(p.(entries := p.entries[index := Entry(s, false)]), index + 1, connect)
  }

  /** Initialisation that succeeds with honest, pairwise distinct sockets
      yields a pool in its valid state, every connection free. */
  lemma InitValid(p: Pool, ip: seq<char>, port: u16, connect: nat -> Connect)
    requires |p.entries| == MaxSockets
    requires forall k :: 0 <= k < MinSockets ==> HonestConnect(connect(k))
    requires forall j, k :: 0 <= j < k < MinSockets && connect(j).Connected? && connect(k).Connected? ==>
               connect(j).sock != connect(k).sock
    ensures var r := Init(p, ip, port, true, connect);
            r.rc == 0 ==> Valid(r.pool) && InUseCount(r.pool.entries, r.pool.size) == 0
  {
    var r := Init(p, ip, port, true, connect);
    if r.rc == 0 {
      NoneInUseCount(r.pool.entries, MinSockets);
    }
  }

  /** The scan loop of get_free_socket from index `index` on: the first free
      live slot, or `size` when there is none. */
  function ScanFree(p: Pool, index: nat): (i: nat)
    requires WellFormed(p)
    requires index <= p.size
    ensures index <= i <= p.size
    ensures i < p.size ==> !p.entries[i].inUse
    ensures forall j :: index <= j < i ==> p.entries[j].inUse
    decreases p.size - index
  {
    if index == p.size then index
    else if !p.entries[index].inUse then index
    else ScanFree(p, index + 1)
  }

  /** The scan loop of put_socket from index `index` on: the first live slot
      holding `s`, or `size` when there is none. */
  function ScanSocket(p: Pool, s: SocketHandle, index: nat): (i: nat)
    requires WellFormed(p)
    requires index <= p.size
    ensures index <= i <= p.size
    ensures i < p.size ==> p.entries[i].socket == s
    ensures forall j :: index <= j < i ==> p.entries[j].socket != s
    decreases p.size - index
  {
    if index == p.size then index
    else if p.entries[index].socket == s then index
    else ScanSocket(p, s, index + 1)
  }

  /** get_free_socket: claim the first free live entry; if the scan found
      none (or found an entry whose socket is NULL) and the pool is below its
      maximum, create and connect a new socket (outcome `c`) and append it as
      an in-use entry; otherwise return NULL. */
  function Acquire(p: Pool, c: Connect): (r: Acquired)
    requires WellFormed(p)
    ensures WellFormed(r.pool)
    ensures r.pool.minSize == p.minSize && r.pool.maxSize == p.maxSize
    ensures r.pool.ip == p.ip && r.pool.port == p.port
    ensures r.pool.size == p.size || (r.pool.size == p.size + 1 && p.size < p.maxSize)
    ensures LiveNonNull(p) ==>
              && (forall i :: IsFirstFree(p, i) ==>
                    && r.sock == p.entries[i].socket
                    && r.pool == p.(entries := p.entries[i := Entry(p.entries[i].socket, true)]))
              && (NoneFree(p) && p.size >= p.maxSize ==> r == Acquired(Null, p))
              && (NoneFree(p) && p.size < p.maxSize && !c.Connected? ==> r == Acquired(Null, p))
              && (NoneFree(p) && p.size < p.maxSize && c.Connected? ==>
                    && r.sock == c.sock
                    && r.pool == p.(entries := p.entries[p.size := Entry(c.sock, true)], size := p.size + 1))
  {
    var i := ScanFree(p, 0);
    var p1 := if i < p.size then p.(entries := p.entries[i := p.entries[i].(inUse := true)]) else p;
    var sock := if i < p.size then p.entries[i].socket else Null;
    if sock != Null then Acquired(sock, p1)
    else if p1.size >= p1.maxSize then Acquired(Null, p1)
    else
      match c
      case CreateFailed(_) => Acquired(Null, p1)
      case ConnectFailed(_) => Acquired(Null, p1)
      case Connected(s) =>
        Acquired(s, p1.(entries := p1.entries[p1.size := Entry(s, true)], size := p1.size + 1))
  }

  /** put_socket: clear the in-use flag of the first live entry holding the
      socket; a NULL or unknown socket leaves the pool as it is. */
  function Release(p: Pool, s: SocketHandle): (r: Pool)
    requires WellFormed(p)
    ensures s == Null ==> r == p
    ensures FreshFor(p, s) ==> r == p
    ensures s != Null ==> forall i :: IsFirstWith(p, s, i) ==> r == p.(entries := p.entries[i := Entry(s, false)])
    ensures r.size == p.size && r.minSize == p.minSize && r.maxSize == p.maxSize
  {
    if s == Null then p
    else
      var i := ScanSocket(p, s, 0);
      if i < p.size then p.(entries := p.entries[i := p.entries[i].(inUse := false)]) else p
  }

  /** socket_pool_cleanup: destroy the sockets of the first `size` entries
      (destroy_socket skips NULL ones), then zero the size, the port and both
      bounds. */
  function Cleanup(p: Pool): (r: Cleaned)
    requires WellFormed(p)
    ensures r.pool == p.(size := 0, port := 0, minSize := 0, maxSize := 0, ip := [])
    ensures forall k :: 0 <= k < |r.destroyed| ==> r.destroyed[k] != Null
    ensures forall i :: 0 <= i < p.size && p.entries[i].socket != Null ==> p.entries[i].socket in r.destroyed
    ensures forall s :: s in r.destroyed ==> exists i :: 0 <= i < p.size && p.entries[i].socket == s
    ensures Valid(p) ==> |r.destroyed| == p.size
                         && forall i :: 0 <= i < p.size ==> r.destroyed[i] == p.entries[i].socket
  {
    Cleaned(LiveSockets(p.entries, p.size), p.(size := 0, port := 0, minSize := 0, maxSize := 0, ip := []))
  }

  /** The non-NULL sockets among the first `n` entries, in slot order. */
  function LiveSockets(entries: seq<Entry>, n: nat): (ss: seq<SocketHandle>)
    requires n <= |entries|
    ensures forall k :: 0 <= k < |ss| ==> ss[k] != Null
    ensures forall i :: 0 <= i < n && entries[i].socket != Null ==> entries[i].socket in ss
    ensures forall s :: s in ss ==> exists i :: 0 <= i < n && entries[i].socket == s
    ensures (forall i :: 0 <= i < n ==> entries[i].socket != Null) ==>
              |ss| == n && forall i :: 0 <= i < n ==> ss[i] == entries[i].socket
  {
    if n == 0 then []
    else
      var prefix := LiveSockets(entries, n - 1);
      if entries[n - 1].socket == Null then prefix else prefix + [entries[n - 1].socket]
  }

  // ----- counting in-use entries -----

  /** Flipping one slot below `n` from free to in use raises the count by one;
      the reverse flip lowers it by one. */
  lemma {:induction false} InUseCountFlip(entries: seq<Entry>, n: nat, i: nat, e: Entry)
    requires i < n <= |entries|
    ensures InUseCount(entries[i := e], n) ==
              InUseCount(entries, n) - (if entries[i].inUse then 1 else 0) + (if e.inUse then 1 else 0)
    decreases n
  {
    if n - 1 != i {
      InUseCountFlip(entries, n - 1, i, e);
    } else {
      InUseCountUnchanged(entries, entries[i := e], n - 1);
    }
  }

  /** The count of the first `n` slots depends on those slots only. */
  lemma {:induction false} InUseCountUnchanged(a: seq<Entry>, b: seq<Entry>, n: nat)
    requires n <= |a| && n <= |b|
    requires forall k :: 0 <= k < n ==> a[k] == b[k]
    ensures InUseCount(a, n) == InUseCount(b, n)
    decreases n
  {
    if n > 0 {
      InUseCountUnchanged(a, b, n - 1);
    }
  }

  /** At most `size` connections are in use at once, and so at most `maxSize`
      in a valid pool. */
  lemma {:induction false} InUseBounded(entries: seq<Entry>, n: nat)
    requires n <= |entries|
    ensures InUseCount(entries, n) <= n
    decreases n
  {
    if n > 0 {
      InUseBounded(entries, n - 1);
    }
  }

  /** When no slot below `n` is in use the count is zero. */
  lemma {:induction false} NoneInUseCount(entries: seq<Entry>, n: nat)
    requires n <= |entries|
    requires forall k :: 0 <= k < n ==> !entries[k].inUse
    ensures InUseCount(entries, n) == 0
    decreases n
  {
    if n > 0 {
      NoneInUseCount(entries, n - 1);
    }
  }

  /** When every live entry is in use the count equals `size`. */
  lemma {:induction false} AllInUseCount(entries: seq<Entry>, n: nat)
    requires n <= |entries|
    requires forall k :: 0 <= k < n ==> entries[k].inUse
    ensures InUseCount(entries, n) == n
    decreases n
  {
    if n > 0 {
      AllInUseCount(entries, n - 1);
    }
  }

  // ----- properties of acquire and release -----

  /** Acquire keeps a valid pool valid when a newly connected socket is an
      honest one distinct from the live sockets; a successful acquire puts
      exactly one more connection in use and a failed one changes nothing. */
  lemma AcquireKeepsValid(p: Pool, c: Connect)
    requires Valid(p)
    requires HonestConnect(c)
    requires c.Connected? ==> FreshFor(p, c.sock)
    ensures var r := Acquire(p, c);
            && Valid(r.pool)
            && r.pool.size >= p.size
            && (r.sock != Null ==> InUseCount(r.pool.entries, r.pool.size) == InUseCount(p.entries, p.size) + 1)
            && (r.sock == Null ==> r.pool == p)
            && InUseCount(r.pool.entries, r.pool.size) <= r.pool.maxSize
  {
    var r := Acquire(p, c);
    var i := ScanFree(p, 0);
    if i < p.size {
      assert IsFirstFree(p, i);
      TakeFreeKeepsValid(p, i);
    } else if p.size < p.maxSize && c.Connected? {
      AppendKeepsValid(p, c.sock);
    }
    InUseBounded(r.pool.entries, r.pool.size);
  }

  /** Marking the first free entry in use keeps the pool valid and puts one
      more connection in use. */
  lemma TakeFreeKeepsValid(p: Pool, i: nat)
    requires Valid(p) && IsFirstFree(p, i)
    ensures var q := p.(entries := p.entries[i := Entry(p.entries[i].socket, true)]);
            Valid(q) && InUseCount(q.entries, q.size) == InUseCount(p.entries, p.size) + 1
  {
    InUseCountFlip(p.entries, p.size, i, Entry(p.entries[i].socket, true));
  }

  /** Appending a fresh in-use connection below the maximum keeps the pool
      valid and puts one more connection in use. */
  lemma AppendKeepsValid(p: Pool, s: SocketHandle)
    requires Valid(p) && p.size < p.maxSize && s != Null && FreshFor(p, s)
    ensures var q := p.(entries := p.entries[p.size := Entry(s, true)], size := p.size + 1);
            Valid(q) && InUseCount(q.entries, q.size) == InUseCount(p.entries, p.size) + 1
  {
    var q := p.(entries := p.entries[p.size := Entry(s, true)], size := p.size + 1);
    InUseCountUnchanged(p.entries, q.entries, p.size);
    assert q.entries[p.size].inUse;
  }

  /** Release keeps a valid pool valid; releasing a socket that is in use
      frees exactly one connection. */
  lemma ReleaseKeepsValid(p: Pool, s: SocketHandle)
    requires Valid(p)
    ensures Valid(Release(p, s))
    ensures (exists i :: 0 <= i < p.size && p.entries[i].socket == s && p.entries[i].inUse) ==>
              InUseCount(Release(p, s).entries, p.size) == InUseCount(p.entries, p.size) - 1
  {
    if s != Null {
      var i := ScanSocket(p, s, 0);
      if i < p.size {
        InUseCountFlip(p.entries, p.size, i, p.entries[i].(inUse := false));
      }
    }
  }

  /** Acquiring a free connection and handing it back restores the pool. */
  lemma AcquireReleaseRoundTrip(p: Pool, c: Connect)
    requires Valid(p)
    requires !NoneFree(p)
    ensures Acquire(p, c).sock != Null
    ensures Release(Acquire(p, c).pool, Acquire(p, c).sock) == p
  {
    var i := ScanFree(p, 0);
    assert IsFirstFree(p, i);
    var r := Acquire(p, c);
    assert IsFirstWith(r.pool, r.sock, i);
    assert r.pool.entries[i := Entry(r.sock, false)] == p.entries;
  }

  /** A grown connection handed back stays in the pool as a free entry: the
      pool never shrinks outside cleanup. */
  lemma AcquireGrowReleaseKeepsEntry(p: Pool, c: Connect)
    requires Valid(p)
    requires NoneFree(p) && p.size < p.maxSize
    requires HonestConnect(c) && c.Connected? && FreshFor(p, c.sock)
    ensures Release(Acquire(p, c).pool, c.sock) ==
              p.(entries := p.entries[p.size := Entry(c.sock, false)], size := p.size + 1)
  {
    var r := Acquire(p, c);
    assert IsFirstWith(r.pool, c.sock, p.size);
  }

  /** With every connection in use at the maximum size, acquisition reports
      exhaustion and leaves the pool untouched, whatever the connect outcome. */
  lemma ExhaustedPoolRefuses(p: Pool, c: Connect)
    requires Valid(p)
    requires InUseCount(p.entries, p.size) == MaxSockets
    ensures Acquire(p, c) == Acquired(Null, p)
  {
    InUseBounded(p.entries, p.size);
    assert NoneFree(p) by {
      if !NoneFree(p) {
        var k :| 0 <= k < p.size && !p.entries[k].inUse;
        InUseCountFlip(p.entries, p.size, k, p.entries[k].(inUse := true));
        InUseBounded(p.entries[k := p.entries[k].(inUse := true)], p.size);
      }
    }
  }

  /** In a pool whose live connections are all in use below the maximum, a
      successful connect grows the pool by exactly one in-use entry, and all
      its connections are again in use. */
  lemma GrowthOnExhaustion(p: Pool, c: Connect)
    requires Valid(p)
    requires NoneFree(p) && p.size < p.maxSize
    requires HonestConnect(c) && c.Connected? && FreshFor(p, c.sock)
    ensures Acquire(p, c).pool.size == p.size + 1
    ensures NoneFree(Acquire(p, c).pool)
    ensures InUseCount(Acquire(p, c).pool.entries, p.size + 1) == p.size + 1
  {
    var r := Acquire(p, c);
    AllInUseCount(r.pool.entries, p.size + 1);
  }

  /** The sockets cleanup finds in a pool of two live slots. */
  lemma LiveSocketsOfTwo(entries: seq<Entry>)
    requires 2 <= |entries|
    ensures LiveSockets(entries, 2) ==
              (if entries[0].socket == Null then [] else [entries[0].socket])
              + (if entries[1].socket == Null then [] else [entries[1].socket])
  {
    assert LiveSockets(entries, 0) == [];
  }

  /** The first two slots after initialising the zeroed pool: each holds its
      connected socket, or NULL from the failing slot on. */
  lemma InitFirstSlots(ip: seq<char>, port: u16, connect: nat -> Connect)
    ensures var e := Init(Zeroed, ip, port, true, connect).pool.entries;
            && e[0].socket == (if connect(0).Connected? then connect(0).sock else Null)
            && e[1].socket == (if connect(0).Connected? && connect(1).Connected? then connect(1).sock else Null)
  {
    var p1 := Zeroed.(size := MinSockets, minSize := MinSockets, maxSize := MaxSockets, port := port, ip := ip);
    var r := Init(Zeroed, ip, port, true, connect);
    assert r == InitSlots(p1, 0, connect);
    if connect(0).Connected? {
      var p2 := p1.(entries := p1.entries[0 := Entry(connect(0).sock, false)]);
      assert r == InitSlots(p2, 1, connect);
    }
  }

  /** Cleanup after initialising the zeroed pool releases exactly the
      sockets initialisation connected: both after success, and those
      connected before the failing slot otherwise (the size stays at
      `MinSockets` after a failure, and the slots never filled hold NULL). */
  lemma CleanupAfterInit(ip: seq<char>, port: u16, connect: nat -> Connect)
    requires forall k :: 0 <= k < MinSockets ==> HonestConnect(connect(k))
    ensures var r := Init(Zeroed, ip, port, true, connect);
            && (r.rc == 0 ==> Cleanup(r.pool).destroyed == [connect(0).sock, connect(1).sock])
            && (!connect(0).Connected? ==> Cleanup(r.pool).destroyed == [])
            && (connect(0).Connected? && !connect(1).Connected? ==> Cleanup(r.pool).destroyed == [connect(0).sock])
  {
    var r := Init(Zeroed, ip, port, true, connect);
    InitFirstSlots(ip, port, connect);
    LiveSocketsOfTwo(r.pool.entries);
    assert HonestConnect(connect(0)) && HonestConnect(connect(1));
  }
}

=== FILE: transport.dfy ===
/** The kernel socket layer as an oracle, and the record of what was sent.
    Every call of `kernel_sendmsg` is an `Attempt`: the socket, the bytes
    offered, and the kernel's reply. The reply to the k-th attempt overall,
    offering n bytes, is `send(k, n)`. */
module Transport {
  import opened Common
  import opened SocketPool

  /** What one `kernel_sendmsg` returned: an error, or the number of bytes
      the socket took. */
  datatype SendReply = SendFailed(rc: Errno) | Accepted(count: nat)

  type SendOracle = (nat, nat) -> SendReply

  datatype Attempt = Attempt(sock: SocketHandle, offered: seq<byte>, reply: SendReply)

  /** A reply a stream socket can give to an offer of `n` bytes: an error,
      or a count of at most `n` bytes that is positive when `n` is. */
  predicate HonestReply(r: SendReply, n: nat)
  {
    r.Accepted? ==> r.count <= n && (n > 0 ==> r.count > 0)
  }

  /** The transport behaves as a stream socket on every call. A reply of 0
      to a non-empty offer would make write_to_socket loop forever, so it is
      excluded here. */
  ghost predicate HonestSend(send: SendOracle)
  {
    forall k, n {:trigger HonestReply(send(k, n), n)} :: HonestReply(send(k, n), n)
  }

  /** The bytes one attempt put on the wire: the accepted prefix of the offer. */
  function Delivered(a: Attempt): (bs: seq<byte>)
    ensures bs <= a.offered
  {
    if a.reply.Accepted? && a.reply.count <= |a.offered| then a.offered[..a.reply.count] else []
  }

  /** The bytes a sequence of attempts put on the wire, in order. */
  function Stream(log: seq<Attempt>): seq<byte>
  {
    if |log| == 0 then [] else Stream(log[..|log| - 1]) + Delivered(log[|log| - 1])
  }

  /** Every attempt in `log[from..]` went to `sock`: no other connection's
      bytes are interleaved. */
  predicate AllOn(log: seq<Attempt>, from: nat, sock: SocketHandle)
    requires from <= |log|
  {
    forall j :: from <= j < |log| ==> log[j].sock == sock
  }

  /** Every attempt in `log[from..]` got the reply the oracle gives for its
      position and the size of its offer. */
  predicate Answered(log: seq<Attempt>, from: nat, send: SendOracle)
    requires from <= |log|
  {
    forall j :: from <= j < |log| ==> log[j].reply == send(j, |log[j].offered|)
  }

  /** Every attempt in `log[from..]` was accepted: none of them failed. */
  predicate AllAccepted(log: seq<Attempt>, from: nat)
    requires from <= |log|
  {
    forall j :: from <= j < |log| ==> log[j].reply.Accepted?
  }

  /** A transport whose every call succeeds (it may still take fewer bytes
      than offered). */
  ghost predicate NeverFails(send: SendOracle)
  {
    forall k, n :: send(k, n).Accepted?
  }

  /** Attempts answered by a transport that never fails were all accepted. */
  lemma NeverFailsAccepted(log: seq<Attempt>, from: nat, send: SendOracle)
    requires from <= |log| && Answered(log, from, send) && NeverFails(send)
    ensures AllAccepted(log, from)
  {
    forall j | from <= j < |log| ensures log[j].reply.Accepted? {
      assert log[j].reply == send(j, |log[j].offered|);
    }
  }

  /** `log'` extends `log` by new attempts only. */
  predicate Extends(log': seq<Attempt>, log: seq<Attempt>)
  {
    |log| <= |log'| && log'[..|log|] == log
  }

  /** Each attempt of `sent` offers exactly the part of `data` that the
      attempts before it had not got onto the wire. */
  predicate OffersRemainder(sent: seq<Attempt>, data: seq<byte>)
  {
    |sent| == 0 ||
    (&& OffersRemainder(sent[..|sent| - 1], data)
     && Stream(sent[..|sent| - 1]) + sent[|sent| - 1].offered == data)
  }

  /** An attempt offering the rest of `data` after the `written` bytes
      already taken keeps the stream a prefix of `data`, extended by the bytes
      the attempt took. */
  lemma StreamStep(sent: seq<Attempt>, a: Attempt, data: seq<byte>, written: nat)
    requires written <= |data| && Stream(sent) == data[..written]
    requires OffersRemainder(sent, data)
    requires a.offered == data[written..]
    ensures OffersRemainder(sent + [a], data)
    ensures a.reply.Accepted? && a.reply.count <= |a.offered| ==>
              Stream(sent + [a]) == data[..written + a.reply.count]
    ensures a.reply.SendFailed? ==> Stream(sent + [a]) == data[..written]
  {
    assert (sent + [a])[..|sent|] == sent;
    assert data == data[..written] + a.offered;
  }

  /** `sent` is a run of accepted attempts on `sock`, the j-th of which
      was attempt number `base + j` overall and got the oracle's reply. */
  predicate AcceptedRun(sent: seq<Attempt>, base: nat, sock: SocketHandle, send: SendOracle)
  {
    forall j :: 0 <= j < |sent| ==>
      sent[j].sock == sock && sent[j].reply.Accepted? && sent[j].reply == send(base + j, |sent[j].offered|)
  }

  lemma AcceptedRunSnoc(sent: seq<Attempt>, a: Attempt, base: nat, sock: SocketHandle, send: SendOracle)
    requires AcceptedRun(sent, base, sock, send)
    requires a.sock == sock && a.reply.Accepted? && a.reply == send(base + |sent|, |a.offered|)
    ensures AcceptedRun(sent + [a], base, sock, send)
  {
    var s' := sent + [a];
    forall j | 0 <= j < |s'|
      ensures s'[j].sock == sock && s'[j].reply.Accepted? && s'[j].reply == send(base + j, |s'[j].offered|)
    {
      if j < |sent| {
        assert s'[j] == sent[j];
      }
    }
  }

  lemma StreamSnoc(log: seq<Attempt>, a: Attempt)
    ensures Stream(log + [a]) == Stream(log) + Delivered(a)
  {
    assert (log + [a])[..|log|] == log;
  }

  lemma {:induction false} StreamAppend(a: seq<Attempt>, b: seq<Attempt>)
    ensures Stream(a + b) == Stream(a) + Stream(b)
    decreases |b|
  {
    if |b| == 0 {
      assert a + b == a;
    } else {
      var b', e := b[..|b| - 1], b[|b| - 1];
      assert b == b' + [e];
      assert a + b == (a + b') + [e];
      StreamSnoc(a + b', e);
      StreamSnoc(b', e);
      StreamAppend(a, b');
      ConcatAssoc(Stream(a), Stream(b'), Delivered(e));
    }
  }

  /** Splitting a log at any point splits its stream there. */
  lemma StreamSplit(log: seq<Attempt>, i: nat, j: nat)
    requires i <= j <= |log|
    ensures Stream(log[i..]) == Stream(log[i..j]) + Stream(log[j..])
  {
    assert log[i..] == log[i..j] + log[j..];
    StreamAppend(log[i..j], log[j..]);
  }

  /** Two writes on the same socket, one after the other, are one write whose
      stream is the first's followed by the second's. */
  lemma ChainLogs(l0: seq<Attempt>, l1: seq<Attempt>, l2: seq<Attempt>, sock: SocketHandle, send: SendOracle)
    requires Extends(l1, l0) && AllOn(l1, |l0|, sock) && Answered(l1, |l0|, send)
    requires Extends(l2, l1) && AllOn(l2, |l1|, sock) && Answered(l2, |l1|, send)
    ensures Extends(l2, l0) && AllOn(l2, |l0|, sock) && Answered(l2, |l0|, send)
    ensures Stream(l2[|l0|..]) == Stream(l1[|l0|..]) + Stream(l2[|l1|..])
  {
    assert l2[..|l0|] == l2[..|l1|][..|l0|];
    assert l2[|l0|..|l1|] == l1[|l0|..];
    StreamSplit(l2, |l0|, |l1|);
  }

  /** Like ChainLogs, for attempts that need not share a socket. */
  lemma ExtendLog(l0: seq<Attempt>, l1: seq<Attempt>, l2: seq<Attempt>, send: SendOracle)
    requires Extends(l1, l0) && Answered(l1, |l0|, send)
    requires Extends(l2, l1) && Answered(l2, |l1|, send)
    ensures Extends(l2, l0) && Answered(l2, |l0|, send)
    ensures Stream(l2[|l0|..]) == Stream(l1[|l0|..]) + Stream(l2[|l1|..])
  {
    assert l2[..|l0|] == l2[..|l1|][..|l0|];
    assert l2[|l0|..|l1|] == l1[|l0|..];
    StreamSplit(l2, |l0|, |l1|);
  }

  /** A log extended twice had all its new attempts accepted exactly when
      both extensions did. */
  lemma AllAcceptedSplit(l0: seq<Attempt>, l1: seq<Attempt>, l2: seq<Attempt>)
    requires Extends(l1, l0) && Extends(l2, l1)
    ensures AllAccepted(l2, |l0|) <==> AllAccepted(l1, |l0|) && AllAccepted(l2, |l1|)
  {
    forall j | |l0| <= j < |l1| ensures l2[j] == l1[j] {
      assert l2[..|l1|][j] == l2[j];
    }
  }
}

=== FILE: writer.dfy ===
/** write_to_socket: deliver a buffer over one connection, resending the
    unsent remainder after every short write and giving up at the first
    error. */
module Writer {
  import opened Common
  import opened SocketPool
  import opened Transport

  /** An accepted run appended to a log: the log's new attempts are on
      `sock`, answered by the oracle, and all accepted. */
  lemma AcceptedRunInLog(log: seq<Attempt>, sent: seq<Attempt>, sock: SocketHandle, send: SendOracle)
    requires AcceptedRun(sent, |log|, sock, send)
    ensures Extends(log + sent, log) && (log + sent)[|log|..] == sent
    ensures AllOn(log + sent, |log|, sock) && Answered(log + sent, |log|, send)
    ensures forall j :: |log| <= j < |log + sent| ==> (log + sent)[j].reply.Accepted?
  {
    var l := log + sent;
    assert l[..|log|] == log;
    assert l[|log|..] == sent;
    forall j | |log| <= j < |l| ensures l[j] == sent[j - |log|] {
    }
  }

  /** An accepted run closed by one failed attempt, appended to a log. */
  lemma FailedRunInLog(log: seq<Attempt>, sent: seq<Attempt>, a: Attempt, sock: SocketHandle, send: SendOracle)
    requires AcceptedRun(sent, |log|, sock, send)
    requires a.sock == sock && a.reply == send(|log| + |sent|, |a.offered|)
    ensures Extends(log + (sent + [a]), log) && (log + (sent + [a]))[|log|..] == sent + [a]
    ensures AllOn(log + (sent + [a]), |log|, sock) && Answered(log + (sent + [a]), |log|, send)
    ensures forall j :: |log| <= j < |log + (sent + [a])| - 1 ==> (log + (sent + [a]))[j].reply.Accepted?
    ensures (log + (sent + [a]))[|log + (sent + [a])| - 1] == a
  {
    AcceptedRunInLog(log, sent, sock, send);
    var l := log + (sent + [a]);
    assert l == (log + sent) + [a];
    assert l[..|log|] == log;
    assert l[|log|..] == sent + [a];
  }

  /** The state of write_to_socket's loop: `sent` are the attempts made,
      all accepted, numbered from `base`; together they took the first
      `written` bytes of `data`, each offering what was left. */
  predicate Sending(send: SendOracle, data: seq<byte>, sock: SocketHandle, base: nat, sent: seq<Attempt>, written: nat)
  {
    && written <= |data|
    && AcceptedRun(sent, base, sock, send)
    && Stream(sent) == data[..written]
    && OffersRemainder(sent, data)
    && (|sent| > 0 ==> written < |data|)
  }

  /** The next attempt offers what is left. It fails, or takes the rest, or
      takes some but not all of the rest, in which case the loop goes on
      having made progress. */
  lemma NextAttempt(send: SendOracle, data: seq<byte>, sock: SocketHandle, base: nat, sent: seq<Attempt>, written: nat,
                    a: Attempt)
    requires Sending(send, data, sock, base, sent, written)
    requires a == Attempt(sock, data[written..], send(base + |sent|, |a.offered|))
    requires HonestReply(a.reply, |a.offered|)
    ensures OffersRemainder(sent + [a], data)
    ensures Stream(sent + [a]) <= data
    ensures a.reply.SendFailed? && data != [] ==> Stream(sent + [a]) < data
    ensures a.reply.Accepted? && written + a.reply.count == |data| ==> Stream(sent + [a]) == data
    ensures a.reply.Accepted? && written + a.reply.count != |data| ==>
              && written < written + a.reply.count
              && Sending(send, data, sock, base, sent + [a], written + a.reply.count)
  {
    StreamStep(sent, a, data, written);
    if a.reply.Accepted? {
      AcceptedRunSnoc(sent, a, base, sock, send);
    }
  }

  /** How write_to_socket's loop ends: `sent` are the accepted attempts,
      numbered from `base`, and `last` the final one; every attempt offered
      what was left of `data`; a result of 0 means all of it was taken, any
      other result is the final attempt's error. */
  predicate Finished(send: SendOracle, data: seq<byte>, sock: SocketHandle, base: nat,
                     rc: int, sent: seq<Attempt>, last: Attempt)
  {
    && AcceptedRun(sent, base, sock, send)
    && last.sock == sock && last.reply == send(base + |sent|, |last.offered|)
    && OffersRemainder(sent + [last], data)
    && (rc == 0 ==> last.reply.Accepted? && Stream(sent + [last]) == data)
    && (rc != 0 ==> rc < 0 && last.reply == SendFailed(rc))
    && Stream(sent + [last]) <= data
    && (rc != 0 && data != [] ==> Stream(sent + [last]) < data)
  }

  /** The next attempt, in terms of the loop: it ends the loop with its
      error, or ends it having taken everything, or leaves the loop going
      with more bytes taken. */
  lemma AttemptOutcome(send: SendOracle, data: seq<byte>, sock: SocketHandle, base: nat, sent: seq<Attempt>, written: nat,
                       a: Attempt)
    requires Sending(send, data, sock, base, sent, written)
    requires a == Attempt(sock, data[written..], send(base + |sent|, |a.offered|))
    requires HonestReply(a.reply, |a.offered|)
    ensures a.reply.SendFailed? ==> Finished(send, data, sock, base, a.reply.rc, sent, a)
    ensures a.reply.Accepted? && written + a.reply.count == |data| ==> Finished(send, data, sock, base, 0, sent, a)
    ensures a.reply.Accepted? && written + a.reply.count != |data| ==>
              && written < written + a.reply.count
              && Sending(send, data, sock, base, sent + [a], written + a.reply.count)
  {
    NextAttempt(send, data, sock, base, sent, written, a);
  }

  /** One pass through `repeat_send`: offer what is left and either finish
      (an error, or nothing left) or carry on having taken more bytes. */
  method SendOnce(send: SendOracle, data: seq<byte>, sock: SocketHandle, base: nat, sent: seq<Attempt>, written: nat)
    returns (done: bool, rc: int, sent': seq<Attempt>, written': nat, last: Attempt)
    requires HonestSend(send)
    requires Sending(send, data, sock, base, sent, written)
    ensures done ==> Finished(send, data, sock, base, rc, sent', last)
    ensures !done ==> Sending(send, data, sock, base, sent', written') && |sent'| > 0 && written < written'
  {
    var offered := data[written..];
    var reply := send(base + |sent|, |offered|);
    assert HonestReply(reply, |offered|);
    last := Attempt(sock, offered, reply);
    AttemptOutcome(send, data, sock, base, sent, written, last);
    if reply.SendFailed? {
      return true, reply.rc, sent, written, last;
    }
    if written + reply.count == |data| {
      return true, 0, sent, written, last;
    }
    return false, 0, sent + [last], written + reply.count, last;
  }

  /** The retry loop of write_to_socket (`repeat_send`): attempts numbered
      from `base`, each offering the part of `data` not yet taken, until all
      of it is taken or an attempt fails. Returns the result, the accepted
      attempts and the final attempt. */
  method SendLoop(send: SendOracle, data: seq<byte>, sock: SocketHandle, base: nat)
    returns (rc: int, sent: seq<Attempt>, last: Attempt)
    requires HonestSend(send)
    ensures Finished(send, data, sock, base, rc, sent, last)
  {
    var written: nat, done := 0, false;
    rc, sent, last := 0, [], Attempt(sock, data, SendFailed(-1));
    while !done
      invariant !done ==> Sending(send, data, sock, base, sent, written)
      invariant done ==> Finished(send, data, sock, base, rc, sent, last)
      decreases !done, |data| - written + (if |sent| == 0 then 1 else 0)
    {
      done, rc, sent, written, last := SendOnce(send, data, sock, base, sent, written);
    }
  }

  /** Sends `data` on `sock`, appending the attempts to `log`. Returns 0 once
      every byte is taken, or the first negative reply, after which nothing
      more is sent. A zero-length buffer still makes one (empty) attempt. */
  method WriteToSocket(send: SendOracle, data: seq<byte>, sock: SocketHandle, log: seq<Attempt>)
    returns (rc: int, log': seq<Attempt>)
    requires HonestSend(send)
    ensures Extends(log', log) && |log'| > |log|
    ensures AllOn(log', |log|, sock) && Answered(log', |log|, send)
    // every attempt offers exactly the part of the buffer not yet taken
    ensures OffersRemainder(log'[|log|..], data)
    // all attempts but the last were accepted
    ensures forall j :: |log| <= j < |log'| - 1 ==> log'[j].reply.Accepted?
    ensures rc == 0 ==> Stream(log'[|log|..]) == data && log'[|log'| - 1].reply.Accepted?
    ensures rc != 0 ==> rc < 0 && log'[|log'| - 1].reply == SendFailed(rc)
    // whatever happens, what got onto the wire is a prefix of the buffer,
    // and a failure leaves some of a non-empty buffer unsent
    ensures Stream(log'[|log|..]) <= data
    ensures rc != 0 && data != [] ==> Stream(log'[|log|..]) < data
    // the result reports success exactly when no attempt failed
    ensures rc == 0 <==> AllAccepted(log', |log|)
  {
    var sent, last;
    rc, sent, last := SendLoop(send, data, sock, |log|);
    FailedRunInLog(log, sent, last, sock, send);
    log' := log + (sent + [last]);
  }
}
